=== FILE: README.md ===
# Smart ATS resume analyzer: retrieval pipeline and response handling in Dafny

This project models the logic of the Smart ATS resume analyzer, a Streamlit
application. The model covers four parts:

- **The retrieval pipeline of `RAGSystem`** (module `Rag`). It builds the
  document list from the resume, the job description and the GitHub
  repositories. It guards the index build and maps FAISS search results back
  to documents. It then answers from the retrieved context, or falls back to
  a fixed sentence or an apology.
- **The keyword table and keyword chart** (module `Keywords`). They classify
  each missing keyword by a case-insensitive, priority-ordered substring rule.
- **`analyze_resume`** (module `Gemini`). It chooses between the ATS prompt
  and the GitHub prompt, turns a failed or empty model reply into `None`, and
  removes a ```` ```json ```` code fence from the reply.
- **The single-page app's `main` flow** (module `App`). This covers its
  prompt choice, its exception handling, the project-statistics lookup with
  a default, and the top-three list of projects to highlight.

Two support modules hold the shared pieces:

- `Wrappers` holds `Option`, `Result` and `Outcome`.
- `PyStr` models the Python string operations the code relies on:
  - `strip()` with Python's whitespace set;
  - `lower()`;
  - the `in` substring test and `startswith`;
  - slicing with negative and out-of-range bounds;
  - `join`;
  - `str(n)` for integers.

The code calls several things this model cannot see: the text splitter,
OpenAI embeddings, FAISS, the chat and Gemini models, the GitHub fetch and
`json.dumps`. Each is a function-typed parameter, so every property holds
for every behaviour of those services. Library exceptions are `Failure`
values: FAISS's `add` returns an `Outcome` (pass, or fail with the error),
`json.dumps` of the fetched repository records is taken to be total and
returns a plain string, and every other service returns a `Result`. The two prompt templates are parameters
too: a template is a sequence of literal runs and named fields, and filling
a field the call does not pass fails as Python's `KeyError` does.

Behaviour of the code that the contracts make explicit:

- FAISS pads a short result row with position `-1`. Because `-1 < len(documents)`,
  that slot passes the filter and resolves to the last document. Its score is
  the distance of the first slot with that position. With no documents,
  `documents[-1]` raises and retrieval yields `[]`.
- `create_embeddings_and_index` reassigns `metadata` before anything can
  raise. A failed embedding call therefore leaves the new metadata next to the
  old index. A failed `add` leaves the new, possibly empty, index in place.
- `process_documents` replaces the document list but keeps the index. Until
  the index is rebuilt, search positions refer to the new list.
- `analyze_resume` returns `None` for an empty reply. A reply of whitespace
  only is truthy, so the function returns the empty string for it.
- A reply that starts with ```` ```json ```` loses its first 7 and last 3
  characters, whatever they are. A bare ```` ``` ```` fence is left in place.
- In the app's `main`, a failed model call is caught and reported as a GitHub
  error when a user name was given. Without a user name, nothing catches it.
- With a user name but no repositories, `main` uses the ATS prompt but still
  asks for the GitHub section to be shown.

The code has no chunk-count formula of its own (the splitter decides),
no check of the embedding dimension, no limit on the size of the context
placed in the prompt, and no way for a retrieval failure to reach the
caller: every failure of `retrieve_relevant_context` becomes `[]`.

## Model

| member | source | states |
|---|---|---|
| Rag.Init | app/utils/rag_utils.py:12-28 | construction succeeds exactly when the API key is present and non-empty, and starts with no index, no documents and no metadata |
| Rag.Enumerate | app/utils/rag_utils.py:46-54 | one document per chunk, in chunk order, with the given source and `chunk_id` equal to the chunk's position |
| Rag.ProcessDocuments | app/utils/rag_utils.py:30-92 | a failing resume split or job-description split raises that error; with repositories, once both splits succeed, it succeeds exactly when every repository splits and otherwise raises the repository's error, leaving the instance as it was; success leaves index and metadata untouched; without repositories it succeeds exactly when both splits do and yields resume plus job-description chunk counts |
| Rag.ProcessDocumentsLayout | app/utils/rag_utils.py:42-92 | the list is the resume chunks numbered from 0, then the job-description chunks numbered from 0, then the repository documents, with nothing else |
| Rag.RepositoryDocumentsLength | app/utils/rag_utils.py:69-90 | when every repository text splits, the repository documents exist and their number is the total chunk count |
| Rag.RepositoryDocumentsFlatten | app/utils/rag_utils.py:69-90 | `RepositoryDocuments`, the repository loop, yields the per-repository blocks laid end to end, in repository order |
| Rag.RepositoryBlockAt | app/utils/rag_utils.py:80-90 | the k-th repository's chunks sit right after the chunks of the earlier repositories, tagged with its name and numbered from 0 again |
| Rag.RepositoryDocumentsLayout | app/utils/rag_utils.py:69-90 | every repository's block lies inside the list at its offset, in repository order |
| Rag.RepositoryDocumentsFailure | app/utils/rag_utils.py:70-80 | one repository whose text cannot be split makes the whole document build fail |
| Rag.ProcessDocumentsReplaces | app/utils/rag_utils.py:92 | the new document list does not depend on the previous one |
| Rag.RepositoryTextLines | app/utils/rag_utils.py:71-78 | `RepositoryText`, the f-string text built per repository, opens with its Repository line and holds six lines with non-empty topics, else five, when no value spans lines |
| Rag.CreateEmbeddingsAndIndex | app/utils/rag_utils.py:95-121 | no documents: nothing changes; otherwise metadata is the documents' metadata in order; an embedding failure or a failed `IndexFlatL2` build keeps the old index and reports the error; once the index is built it replaces the old one whatever `add` then does, and the outcome is `add`'s |
| Rag.FailingEmbedderFallsBack | app/utils/rag_utils.py:104-136 | if embedding always raises, a fresh instance gets no index and every chat answer is the fallback sentence |
| Rag.PyIndex | app/utils/rag_utils.py:151-152 | Python indexing: a non-negative index selects that element, a negative one counts from the end |
| Rag.FirstDistance | app/utils/rag_utils.py:153 | the score is the distance in the first slot holding that position |
| Rag.Retained | app/utils/rag_utils.py:148-149 | the slots that pass `idx < len(documents)` come from the row and all pass the filter |
| Rag.RetainedPrefix | app/utils/rag_utils.py:148-149 | filtering a prefix of the row yields a prefix of filtering the row, so row order is kept |
| Rag.RetainedAll | app/utils/rag_utils.py:148-149 | a row whose positions all pass the filter is kept whole |
| Rag.ResolveHits | app/utils/rag_utils.py:147-157 | one result per retained slot, each with the text and metadata of a document of the list |
| Rag.ResolveHitsLoop | app/utils/rag_utils.py:147-157 | the slot-by-slot loop computes exactly the declarative mapping, including the abort on an index below `-len(documents)` |
| Rag.OutOfRangeAborts | app/utils/rag_utils.py:148-161 | a retained position below `-len(documents)` makes the mapping raise, so nothing is returned |
| Rag.ResolveHitsInRange | app/utils/rag_utils.py:148-154 | with no position below `-len(documents)` the mapping succeeds and resolves each retained slot in order |
| Rag.ResolvedSlot | app/utils/rag_utils.py:148-154 | when every position indexes the list Python style, each slot yields the document at its position |
| Rag.FirstDistanceAt | app/utils/rag_utils.py:153 | the score reported for a position is the distance of the first slot holding it |
| Rag.PaddingResolvesToLastDocument | app/utils/rag_utils.py:148-154 | in a row whose positions all index the documents, every padding slot `-1` yields the last document, scored with the first padding slot's distance |
| Rag.PaddingWithoutDocuments | app/utils/rag_utils.py:148-161 | with no documents, any row holding a padding slot makes the mapping raise, so retrieval yields nothing |
| Rag.RetrieveRelevantContext | app/utils/rag_utils.py:123-161 | `[]` without an index, when the query embedding fails or when the search fails; after a successful search, the mapped search results in row order, or `[]` when the mapping raises; every result carries a document's text and metadata |
| Rag.GenerateRagResponse | app/utils/rag_utils.py:163-207 | the fixed fallback sentence for empty context, the model's reply on success, and the apology prefix plus the error text on failure |
| Rag.PromptCarriesContextInOrder | app/utils/rag_utils.py:178-190 | `RagPrompt` is `FramePrompt` with the code's fixed texts; for any fixed text around them, every retrieved text appears in the prompt at its place in the join, followed by the blank-line separator, and the question follows the context |
| Rag.ChatWithRag | app/utils/rag_utils.py:209-225 | chat answers from the five retrieved chunks, and gives the fallback sentence without an index or when the query cannot be embedded |
| Keywords.MentionsAnyIff | app/components/visualizations.py:62-64 | a chain of `w in kw.lower()` tests holds exactly when some word of the group occurs in the lower-cased keyword |
| Keywords.ClassifySpec | app/components/visualizations.py:62-65 | `Classify`, the conditional expression of the table: each suggestion is chosen exactly when its group's words occur and no earlier group's do; General exactly when none occur |
| Keywords.ClassifyIgnoresCase | app/components/visualizations.py:62-65 | a keyword and its lower-cased form get the same suggestion |
| Keywords.SkillsWinOverExperience | app/components/visualizations.py:62-63 | a keyword containing both "tool" and "experience" gets the Skills suggestion |
| Keywords.ToolExperienceGoesToSkills | app/components/visualizations.py:62-65 | "Tool Experience" mentions experience and still goes to Skills/Technologies |
| Keywords.KeywordTable | app/components/visualizations.py:54-69 | no table for an empty list; otherwise one row per keyword, in input order, each of High impact |
| Keywords.KeywordTableSuggestions | app/components/visualizations.py:61-67 | each row's suggestion is the rule's placement of its keyword, Skills exactly when a skills word occurs |
| Keywords.KeywordTableIgnoresCase | app.py:118-124 | the table of lower-cased keywords suggests the same placements row by row |
| Keywords.KeywordChart | app/components/visualizations.py:4-14 | no chart for an empty list; otherwise titled "Missing Keywords" with one bar of height 1 per keyword, in order |
| Keywords.ChartMatchesTable | app.py:87-126 | chart and table exist for the same inputs and list the keywords in the same order |
| Gemini.PieceText | app/models/gemini.py:42-51 | a piece renders exactly when it is literal or names a passed argument |
| Gemini.Format | app/models/gemini.py:42-51 | `format` succeeds exactly when every field the template names is passed |
| Gemini.FormatShowsPiece | app/models/gemini.py:42-51 | every literal and every argument the template names appears in the filled prompt |
| Gemini.FalsyGithubIsIgnored | app/models/gemini.py:41-51 | `Prompt`, the prompt choice of `analyze_resume`: `None` or empty GitHub data yields the ATS prompt, the same as passing none |
| Gemini.GithubDataReachesPrompt | app/models/gemini.py:41-46 | `Prompt`: truthy GitHub data appears in the prompt wherever the GitHub template names it |
| Gemini.AtsTemplateCannotNameGithub | app/models/gemini.py:47-51 | the ATS call does not pass `github_data`, so a template naming it fails |
| Gemini.CleanResponse | app/models/gemini.py:57-60 | a fenced reply loses 10 characters, or becomes empty when shorter than 10, and keeps exactly `t[7:-3]`; an unfenced one is only stripped |
| Gemini.CleanResponseRemovesFence | app/models/gemini.py:58-60 | a body wrapped in a ```` ```json ```` fence and surrounding whitespace comes back exactly |
| Gemini.CleanResponseKeepsUnfenced | app/models/gemini.py:58-62 | a stripped reply not opening with ```` ```json ```` is returned unchanged |
| Gemini.BareFenceIsKept | app/models/gemini.py:59-62 | a reply fenced with a bare ```` ``` ```` keeps its fence |
| Gemini.CleanResponseIdempotentUnfenced | app/models/gemini.py:58-62 | cleaning an unfenced reply twice equals cleaning it once |
| Gemini.GetGeminiResponse | app/models/gemini.py:10-26 | `None` exactly when the model call raises, else the reply text |
| Gemini.AnalyzeResume | app/models/gemini.py:28-66 | `None` exactly when the prompt cannot be filled, the model call fails or the reply is empty; otherwise the cleaned reply |
| Gemini.EmptyReplyIsNone | app/models/gemini.py:53-55 | an empty reply yields `None` |
| Gemini.BlankReplyIsEmpty | app/models/gemini.py:53-62 | a whitespace-only reply yields the empty string, not `None` |
| Gemini.AnalyzeResumeReturnsBody | app/models/gemini.py:53-62 | a fenced JSON reply yields exactly its body |
| App.FindProjectStats | app.py:288-291 | the statistics of the first repository with the project's name, or the default record when none has it |
| App.FindProjectStatsStopsAtMatch | app.py:288-291 | repositories after the first match never change the lookup |
| App.FindProjectStatsLateMatch | app.py:288-291 | a match found only at the end is returned |
| App.ProjectsToHighlight | app.py:207-209 | at most three repositories, exactly three when there are that many, the first ones in order, all of them when fewer |
| App.ProjectsToHighlightStable | app.py:209 | the shown list is stable under showing again and is a prefix of what longer data shows |
| App.Main | app.py:303-377 | the landing page exactly when Analyze was not pressed; the missing-input error exactly when it was pressed without a resume or description; once the fetch (if any) succeeds, the reply is analysed exactly when the chosen prompt fills and the model call succeeds; an analysed reply is the cleaned model reply to that prompt and flags GitHub exactly when a user name was given; a failed fetch reports a GitHub error; a prompt that cannot be filled or a failed model call is reported as a GitHub error with a user name and crashes the page without one |
| App.MainPromptAgreesWithAnalyzeResume | app.py:339-371 | `MainPrompt`, the prompt `main` sends: `main` chooses its prompt by the same rule as `analyze_resume`, given the JSON of the repositories when some were found |
| App.EmptyFetchUsesAtsPrompt | app.py:339-380 | a user with no repositories gets the ATS prompt and the GitHub section flag still set |
| App.MainAgreesWithAnalyzeResume | app.py:373-377 | for a non-empty reply `main` cleans to what `analyze_resume` returns on the same inputs |
| PyStr.Strip | app/models/gemini.py:58 | `strip()` removes only whitespace, from both ends, and leaves no whitespace at either end |
| PyStr.StripUnique | app/models/gemini.py:58 | stripping whitespace-framed stripped text returns that text |
| PyStr.StripIdempotent | app.py:375 | stripping twice equals stripping once |
| PyStr.Lower | app/components/visualizations.py:62 | lower-casing keeps the length and maps every character on its own |
| PyStr.ContainsIff | app/components/visualizations.py:62 | `p in s` holds exactly when `p` occurs at some position of `s` |
| PyStr.SliceBound | app/models/gemini.py:60 | slice bounds count negative values from the end and clamp into the string |
| PyStr.Slice | app/models/gemini.py:60 | a slice is the characters from the normalised start up to the normalised stop, or empty when they cross |
| PyStr.JoinPieces | app/utils/rag_utils.py:178 | each joined piece sits at its offset, followed by the separator unless it is the last |
| PyStr.IntToStr | app/utils/rag_utils.py:74 | the decimal rendering is non-empty and starts with a minus sign exactly for negative numbers |
| PyStr.DigitsRoundTrip | app/utils/rag_utils.py:74 | reading the decimal digits of a number back gives the number |
| PyStr.IntToStrRoundTrip | app/utils/rag_utils.py:74 | `str(n)` is an optional minus sign followed by digits, and reading it back gives `n` |
| PyStr.IntToStrInjective | app/utils/rag_utils.py:74 | different numbers render differently |

## Left out

- The text splitter, OpenAI embeddings, the FAISS index build, `add` and
  `search`, and the chat and Gemini model calls are parameters. No chunk
  count, distance computation or dimensionality check is modelled, because
  the code delegates all of them.
- The float32 conversion and distances are reals. The `float(...)` parsing of
  percentages and impact scores in the charts, and the 85% warning threshold,
  are not modelled because they are floating point.
- `if not self.index` is read as "no index". The truthiness of a FAISS index
  object is not modelled.
- Rag.GenerateRagResponse: the reply `message.content` is taken to be a string;
  the case where the client returns `None` content is not modelled.
- PyStr.Lower: maps only ASCII capitals. Non-ASCII characters whose lower
  case is ASCII, such as U+212A KELVIN SIGN (lower case `k`), are therefore
  classified differently: the code places "FRAMEWOR\u212A" under Skills,
  `Keywords.Classify` under General. Full Unicode case mapping is not modelled.
- Text extraction from the PDF, the GitHub REST client (fork filter, README
  truncation, language percentages) and `json.dumps` are parameters or inputs.
  `json.loads`, the result display and the charts of the analysis are not
  modelled, because they are parsing and presentation.
- App.Main: `fetch_repo_info` catches `requests` exceptions itself
  (github_repo_fecth.py:45-47) and returns `[]`, so an unknown user, an HTTP
  error or a network failure takes the empty-fetch path: the ATS prompt with
  the GitHub section still flagged (`App.EmptyFetchUsesAtsPrompt`), not
  `GithubError`. A `Failure` of the `fetch` parameter stands only for an
  exception that escapes `fetch_repo_info`. The fetcher itself is not modelled.
- App.Main: text extraction from the PDF (app.py:336) is taken to succeed,
  and what happens after `json.loads` is not modelled. An exception from
  either, such as the `KeyError` `display_results` raises for a reply without
  the "JD Match" key (app.py:380, caught only for `json.JSONDecodeError` at
  app.py:382), crashes the page in both branches.
- App.Main: when no user name is given, the model holds the repository data as
  an empty list where the code holds `None`. Both are falsy wherever the code
  tests them, and the lookup that would iterate over it is reached only with a
  user name.
- App.FindProjectStats: repository records always carry every key, as
  `fetch_repo_info` builds them. The `.get` defaults for missing keys on a
  found record are therefore not modelled.
- The language bullet list (`', '.join(...[:3])`) inside the highlighted
  projects is presentation and is not modelled.
- Streamlit caching, logging, session state, and the multi-page variant
  (`app/main.py`, `app/components/display.py`) are left out. The page
  variant's pure fragments are the fence cleaning and the lookup, which
  `Gemini` and `App` already cover.
- The agents, tasks and crew files are declarative configuration with no
  logic, so they are not modelled.

=== FILE: app.dfy ===
/** The single-page Streamlit app: its `main` flow up to the point where the
    cleaned reply is handed to `json.loads`, the lookup of a recommended
    project's GitHub statistics, and the top-three list of projects to
    highlight. Its keyword table and chart are the `Keywords` module's. */
module App {
  import opened Wrappers
  import Gemini

  /* ------------------------------------------------------ GitHub records */

  /** One language of a repository and its share of the code, in percent. */
  datatype LanguageShare = LanguageShare(language: string, percent: real)

  /** One entry of `GithubRepoFetcher.fetch_repo_info()`. */
  datatype RepoRecord = RepoRecord(name: string, description: string, languages: seq<LanguageShare>,
                                   stars: int, forks: int)

  /** What a project's card shows from the GitHub data. */
  datatype ProjectStats = ProjectStats(languages: seq<LanguageShare>, stars: int, forks: int)

  /** The fallback `{"languages": {}, "stars": 0, "forks": 0}`. */
  const DefaultStats := ProjectStats([], 0, 0)

  function StatsOf(r: RepoRecord): ProjectStats {
    ProjectStats(r.languages, r.stars, r.forks)
  }

  /** `k` is the first position whose repository carries `name`. */
  ghost predicate FirstMatch(repos: seq<RepoRecord>, name: string, k: int) {
    0 <= k < |repos| && repos[k].name == name && forall j :: 0 <= j < k ==> repos[j].name != name
  }

  /** `next((p for p in github_data if p["name"] == name), default)`: the
      statistics of the first repository of that name, else the default. */
  function FindProjectStats(repos: seq<RepoRecord>, name: string): (s: ProjectStats)
    ensures (forall j :: 0 <= j < |repos| ==> repos[j].name != name) ==> s == DefaultStats
    ensures forall k :: FirstMatch(repos, name, k) ==> s == StatsOf(repos[k])
  {
    if |repos| == 0 then DefaultStats
    else if repos[0].name == name then StatsOf(repos[0])
    else
      var s := FindProjectStats(repos[1..], name);
      assert forall k :: FirstMatch(repos, name, k) ==> k > 0 && FirstMatch(repos[1..], name, k - 1);
      s
  }

  /** Repositories after the first match do not influence the lookup. */
  lemma {:induction false} FindProjectStatsStopsAtMatch(repos: seq<RepoRecord>, more: seq<RepoRecord>, name: string, k: int)
    requires FirstMatch(repos, name, k)
    ensures FindProjectStats(repos + more, name) == FindProjectStats(repos, name)
  {
    assert FirstMatch(repos + more, name, k);
  }

  /** Adding a repository of that name at the end changes the result only
      when no earlier repository matched. */
  lemma FindProjectStatsLateMatch(repos: seq<RepoRecord>, r: RepoRecord)
    requires forall j :: 0 <= j < |repos| ==> repos[j].name != r.name
    ensures FindProjectStats(repos + [r], r.name) == StatsOf(r)
  {
    assert FirstMatch(repos + [r], r.name, |repos|);
  }

  /** `github_data[:3]` when the data is truthy, else nothing to show. */
  function ProjectsToHighlight(repos: seq<RepoRecord>): (shown: seq<RepoRecord>)
    ensures |shown| <= 3 && |shown| <= |repos|
    ensures |repos| >= 3 ==> |shown| == 3
    ensures |repos| < 3 ==> shown == repos
    ensures forall i :: 0 <= i < |shown| ==> shown[i] == repos[i]
  {
    if |repos| == 0 then [] else repos[..if |repos| < 3 then |repos| else 3]
  }

  /** The list shown is a prefix: showing the shown list again changes nothing,
      and longer data never shows fewer projects. */
  lemma ProjectsToHighlightStable(repos: seq<RepoRecord>, more: seq<RepoRecord>)
    ensures ProjectsToHighlight(ProjectsToHighlight(repos)) == ProjectsToHighlight(repos)
    ensures |ProjectsToHighlight(repos)| <= |ProjectsToHighlight(repos + more)|
    ensures ProjectsToHighlight(repos + more)[..|ProjectsToHighlight(repos)|] == ProjectsToHighlight(repos)
  {
    var a := ProjectsToHighlight(repos);
    var b := ProjectsToHighlight(repos + more);
    assert forall i :: 0 <= i < |a| ==> b[i] == (repos + more)[i] == repos[i] == a[i];
    assert b[..|a|] == a;
  }

  /* ------------------------------------------------------------ the flow */

  /** The sidebar's values when the page runs: whether Analyze was pressed,
      the uploaded resume as its extracted text (absent when nothing was
      uploaded), the job description and the GitHub user name. */
  datatype Inputs = Inputs(submit: bool, resume: Option<string>, jd: string, githubUser: string)

  /** The calls `main` makes that leave the program: fetching a user's
      repositories, `json.dumps` of them, and the model call, which raises on
      failure in this file. `fetch_repo_info` turns a `requests` error into
      an empty list itself, so a `Failure` of `fetch` stands only for an
      exception that escapes it. */
  datatype Services = Services(
    fetch: string -> Result<seq<RepoRecord>, string>,
    dumps: seq<RepoRecord> -> string,
    generate: string -> Result<string, string>)

  /** Where `main` ends up before parsing the reply. */
  datatype Outcome =
    | Landing                         // Analyze not pressed
    | MissingInput                    // no resume or no job description
    | GithubError(message: string)    // reported under "Error fetching GitHub data"
    | Crashed(message: string)        // an exception nothing in `main` catches
    | Cleaned(reply: string, githubData: seq<RepoRecord>, includeGithub: bool)

  /** The prompt `main` sends: the GitHub prompt with the repositories as JSON
      when a user name was given and the fetch found repositories, else the
      ATS prompt. */
  function MainPrompt(text: string, jd: string, user: string, fetched: seq<RepoRecord>,
                      tpls: Gemini.Templates, dumps: seq<RepoRecord> -> string): Result<string, string>
  {
    if |user| > 0 && |fetched| > 0 then
      Gemini.Format(tpls.githubAnalysis, Gemini.Arguments(text, jd, Some(dumps(fetched))))
    else Gemini.Format(tpls.ats, Gemini.Arguments(text, jd, None))
  }

  /** `main` after the page is set up, from the input checks until the
      cleaned reply is handed to `json.loads`; text extraction is taken to
      have succeeded. Inside the GitHub branch every exception, including a
      failed model call, is caught and reported as a GitHub error; without a
      user name a failed model call is not caught. */
  function Main(inp: Inputs, svc: Services, tpls: Gemini.Templates): (r: Outcome)
    ensures r == Landing <==> !inp.submit
    ensures r == MissingInput <==> inp.submit && (inp.resume.None? || |inp.jd| == 0)
    ensures r.Cleaned? ==> inp.submit && inp.resume.Some? && |inp.jd| > 0
    ensures r.Cleaned? ==> r.includeGithub == (|inp.githubUser| > 0)
    ensures r.Cleaned? && !r.includeGithub ==> r.githubData == []
    ensures r.Crashed? ==> |inp.githubUser| == 0
    ensures r.GithubError? ==> |inp.githubUser| > 0
    ensures (inp.submit && inp.resume.Some? && |inp.jd| > 0 && |inp.githubUser| > 0
             && svc.fetch(inp.githubUser).Failure?) ==> r == GithubError(svc.fetch(inp.githubUser).error)
    ensures r.Cleaned? && r.includeGithub ==> svc.fetch(inp.githubUser) == Success(r.githubData)
    ensures (inp.submit && inp.resume.Some? && |inp.jd| > 0
             && (|inp.githubUser| > 0 ==> svc.fetch(inp.githubUser).Success?)) ==>
              var fetched := if |inp.githubUser| > 0 then svc.fetch(inp.githubUser).value else [];
              var prompt := MainPrompt(inp.resume.value, inp.jd, inp.githubUser, fetched, tpls, svc.dumps);
              (r.Cleaned? <==> prompt.Success? && svc.generate(prompt.value).Success?)
    ensures (inp.submit && inp.resume.Some? && |inp.jd| > 0
             && (|inp.githubUser| > 0 ==> svc.fetch(inp.githubUser).Success?)) ==>
              var fetched := if |inp.githubUser| > 0 then svc.fetch(inp.githubUser).value else [];
              var prompt := MainPrompt(inp.resume.value, inp.jd, inp.githubUser, fetched, tpls, svc.dumps);
              var fail := if prompt.Failure? then Some(prompt.error)
                          else if svc.generate(prompt.value).Failure? then Some(svc.generate(prompt.value).error)
                          else None;
              fail.Some? ==> r == (if |inp.githubUser| > 0 then GithubError(fail.value) else Crashed(fail.value))
    ensures r.Cleaned? ==>
              var prompt := MainPrompt(inp.resume.value, inp.jd, inp.githubUser, r.githubData, tpls, svc.dumps);
              && prompt.Success? && svc.generate(prompt.value).Success?
              && r.reply == Gemini.CleanResponse(svc.generate(prompt.value).value)
  {
    if !inp.submit then Landing
    else if inp.resume.None? || |inp.jd| == 0 then MissingInput
    else
      var text := inp.resume.value;
      if |inp.githubUser| > 0 then
        match svc.fetch(inp.githubUser)
        case Failure(e) => GithubError(e)
        case Success(fetched) =>
          match MainPrompt(text, inp.jd, inp.githubUser, fetched, tpls, svc.dumps)
          case Failure(e) => GithubError(e)
          case Success(prompt) =>
            match svc.generate(prompt)
            case Failure(e) => GithubError(e)
            case Success(reply) => Cleaned(Gemini.CleanResponse(reply), fetched, true)
      else
        match MainPrompt(text, inp.jd, inp.githubUser, [], tpls, svc.dumps)
        case Failure(e) => Crashed(e)
        case Success(prompt) =>
          match svc.generate(prompt)
          case Failure(e) => Crashed(e)
          case Success(reply) => Cleaned(Gemini.CleanResponse(reply), [], false)
  }

  /** `main`'s prompt choice is `analyze_resume`'s rule applied to the JSON of
      the fetched repositories, passed only when there are some: JSON text of
      a non-empty list is itself non-empty. */
  lemma MainPromptAgreesWithAnalyzeResume(text: string, jd: string, user: string, fetched: seq<RepoRecord>,
                                          tpls: Gemini.Templates, dumps: seq<RepoRecord> -> string)
    requires |fetched| > 0 ==> |dumps(fetched)| > 0
    ensures MainPrompt(text, jd, user, fetched, tpls, dumps)
            == Gemini.Prompt(text, jd, if |user| > 0 && |fetched| > 0 then Some(dumps(fetched)) else None, tpls)
  {
  }

  /** With a user name but no repositories found, `main` falls back to the
      ATS prompt, yet still asks for the GitHub section to be shown. */
  lemma EmptyFetchUsesAtsPrompt(inp: Inputs, svc: Services, tpls: Gemini.Templates)
    requires inp.submit && inp.resume.Some? && |inp.jd| > 0 && |inp.githubUser| > 0
    requires svc.fetch(inp.githubUser) == Success([])
    requires Gemini.Format(tpls.ats, Gemini.Arguments(inp.resume.value, inp.jd, None)).Success?
    requires svc.generate(Gemini.Format(tpls.ats, Gemini.Arguments(inp.resume.value, inp.jd, None)).value).Success?
    ensures Main(inp, svc, tpls).Cleaned?
    ensures Main(inp, svc, tpls).includeGithub && Main(inp, svc, tpls).githubData == []
  {
  }

  /** Whenever `main` reaches the parse with a non-empty reply, it holds what
      `analyze_resume` returns for the same inputs: the two code paths choose
      the same prompt and clean the reply the same way. */
  lemma MainAgreesWithAnalyzeResume(inp: Inputs, svc: Services, tpls: Gemini.Templates)
    requires forall repos :: |repos| > 0 ==> |svc.dumps(repos)| > 0
    requires Main(inp, svc, tpls).Cleaned?
    ensures var out := Main(inp, svc, tpls);
            var github := if out.includeGithub && |out.githubData| > 0 then Some(svc.dumps(out.githubData)) else None;
            var prompt := Gemini.Prompt(inp.resume.value, inp.jd, github, tpls);
            && prompt.Success?
            && svc.generate(prompt.value).Success?
            && (|svc.generate(prompt.value).value| > 0 ==>
                  Gemini.AnalyzeResume(inp.resume.value, inp.jd, github, tpls, svc.generate) == Some(out.reply))
  {
    var text := inp.resume.value;
    if |inp.githubUser| > 0 {
      var fetched := svc.fetch(inp.githubUser).value;
      MainPromptAgreesWithAnalyzeResume(text, inp.jd, inp.githubUser, fetched, tpls, svc.dumps);
    } else {
      MainPromptAgreesWithAnalyzeResume(text, inp.jd, inp.githubUser, [], tpls, svc.dumps);
    }
  }
}

=== FILE: gemini.dfy ===
/** `analyze_resume`: fills one of two prompt templates, asks the model, and
    cleans the reply by stripping whitespace and removing a ```` ```json ````
    code fence. Also the `str.format` calls both this module and the
    single-page app use to fill the templates. */
module Gemini {
  import opened Wrappers
  import opened PyStr

  /* ------------------------------------------------------------ templates */

  /** The replacement fields a prompt template may name. */
  datatype Slot = TextSlot | JdSlot | GithubSlot | OtherSlot(name: string)

  /** A parsed template: literal runs (with `{{`/`}}` already read as braces)
      and replacement fields. */
  datatype Piece = Lit(text: string) | Hole(slot: Slot)

  type Template = seq<Piece>

  /** The two prompts: `ats_prompt` and `github_analysis_prompt`. */
  datatype Templates = Templates(ats: Template, githubAnalysis: Template)

  /** The keyword arguments of one `format` call; `github` is absent when the
      call does not pass `github_data`. */
  datatype Arguments = Arguments(text: string, jd: string, github: Option<string>)

  function SlotName(s: Slot): string {
    match s
    case TextSlot => "text"
    case JdSlot => "jd"
    case GithubSlot => "github_data"
    case OtherSlot(name) => name
  }

  /** The value passed for a field, if the call passes one. */
  function Lookup(a: Arguments, s: Slot): Option<string> {
    match s
    case TextSlot => Some(a.text)
    case JdSlot => Some(a.jd)
    case GithubSlot => a.github
    case OtherSlot(_) => None
  }

  /** Every field the template names has a value. */
  ghost predicate Bound(tpl: Template, a: Arguments) {
    forall k :: 0 <= k < |tpl| && tpl[k].Hole? ==> Lookup(a, tpl[k].slot).Some?
  }

  /** One piece rendered; a field without a value raises `KeyError`. */
  function PieceText(p: Piece, a: Arguments): (r: Result<string, string>)
    ensures r.Success? <==> (p.Hole? ==> Lookup(a, p.slot).Some?)
  {
    match p
    case Lit(t) => Success(t)
    case Hole(s) =>
      match Lookup(a, s)
      case None => Failure("'" + SlotName(s) + "'")
      case Some(v) => Success(v)
  }

  /** `template.format(**a)`: succeeds exactly when every field is bound. */
  function Format(tpl: Template, a: Arguments): (r: Result<string, string>)
    ensures r.Success? <==> Bound(tpl, a)
  {
    if |tpl| == 0 then Success("")
    else
      var head :- PieceText(tpl[0], a);
      var rest :- Format(tpl[1..], a);
      assert forall k :: 0 < k < |tpl| ==> tpl[k] == tpl[1..][k - 1];
      Success(head + rest)
  }

  /** Each piece's text appears in the formatted string: the literals and
      every argument the template names. */
  lemma {:induction false} FormatShowsPiece(tpl: Template, a: Arguments, k: int)
    requires 0 <= k < |tpl| && Bound(tpl, a)
    ensures Format(tpl, a).Success? && PieceText(tpl[k], a).Success?
    ensures exists o :: OccursAt(Format(tpl, a).value, PieceText(tpl[k], a).value, o)
  {
    var head := PieceText(tpl[0], a).value;
    assert Bound(tpl[1..], a) by {
      forall j | 0 <= j < |tpl| - 1 && tpl[1..][j].Hole?
        ensures Lookup(a, tpl[1..][j].slot).Some?
      {
        assert tpl[1..][j] == tpl[j + 1];
      }
    }
    var rest := Format(tpl[1..], a).value;
    assert Format(tpl, a).value == head + rest;
    if k == 0 {
      assert head[0..|head|] == head;
      OccursExtend(head, rest, head, 0);
    } else {
      FormatShowsPiece(tpl[1..], a, k - 1);
      assert tpl[1..][k - 1] == tpl[k];
      var o :| OccursAt(rest, PieceText(tpl[k], a).value, o);
      OccursShift(head, rest, PieceText(tpl[k], a).value, o);
    }
  }

  /* ----------------------------------------------------- prompt selection */

  /** Python truthiness of the `github_data` argument. */
  predicate Truthy(github: Option<string>) {
    github.Some? && |github.value| > 0
  }

  /** The prompt `analyze_resume` builds: the GitHub template with all three
      arguments when GitHub data is truthy, else the ATS template with only
      the resume and the job description. */
  function Prompt(text: string, jd: string, github: Option<string>, tpls: Templates): Result<string, string> {
    if Truthy(github) then Format(tpls.githubAnalysis, Arguments(text, jd, github))
    else Format(tpls.ats, Arguments(text, jd, None))
  }

  /** Falsy GitHub data, `None` or empty, builds the same prompt as no GitHub
      data at all, and that prompt is the ATS one. */
  lemma FalsyGithubIsIgnored(text: string, jd: string, github: Option<string>, tpls: Templates)
    requires !Truthy(github)
    ensures Prompt(text, jd, github, tpls) == Prompt(text, jd, None, tpls)
    ensures Prompt(text, jd, github, tpls) == Format(tpls.ats, Arguments(text, jd, None))
  {
  }

  /** With truthy GitHub data and a GitHub template whose fields are all
      bound, the GitHub data appears in the prompt wherever the template
      names `github_data`. */
  lemma GithubDataReachesPrompt(text: string, jd: string, github: string, tpls: Templates, k: int)
    requires |github| > 0 && 0 <= k < |tpls.githubAnalysis|
    requires Bound(tpls.githubAnalysis, Arguments(text, jd, Some(github)))
    requires tpls.githubAnalysis[k] == Hole(GithubSlot)
    ensures Prompt(text, jd, Some(github), tpls).Success?
    ensures exists o :: OccursAt(Prompt(text, jd, Some(github), tpls).value, github, o)
  {
    FormatShowsPiece(tpls.githubAnalysis, Arguments(text, jd, Some(github)), k);
  }

  /** An ATS template that names `github_data` cannot be filled: `format`
      raises `KeyError`, whatever the GitHub data. */
  lemma AtsTemplateCannotNameGithub(text: string, jd: string, github: Option<string>, tpls: Templates, k: int)
    requires !Truthy(github) && 0 <= k < |tpls.ats| && tpls.ats[k] == Hole(GithubSlot)
    ensures Prompt(text, jd, github, tpls).Failure?
  {
  }

  /* ------------------------------------------------------------- cleaning */

  const JsonFence := "```json"

  /** `response.strip()`, then `response[7:-3]` when it starts with
      ```` ```json ````. Slicing cannot raise: a short fenced reply becomes
      the empty string. */
  function CleanResponse(s: string): (r: string)
    ensures var t := Strip(s);
            && (StartsWith(t, JsonFence) ==> |r| == if |t| >= 10 then |t| - 10 else 0)
            && (StartsWith(t, JsonFence) && |t| >= 10 ==> r == t[7..|t| - 3])
            && (!StartsWith(t, JsonFence) ==> r == t)
  {
    var t := Strip(s);
    if StartsWith(t, JsonFence) then Slice(t, 7, -3) else t
  }

  /** Cleaning undoes the fence: a JSON body wrapped in ```` ```json ````
      and ```` ``` ````, with any whitespace around, comes back as the body. */
  lemma CleanResponseRemovesFence(p: string, body: string, q: string)
    requires AllSpace(p) && AllSpace(q)
    ensures CleanResponse(p + JsonFence + body + "```" + q) == body
  {
    var w := JsonFence + body + "```";
    assert !IsSpace(w[0]) && !IsSpace(w[|w| - 1]);
    assert p + JsonFence + body + "```" + q == p + w + q;
    StripUnique(p, w, q);
    assert w[..7] == JsonFence;
    assert w[7..|w| - 3] == body;
  }

  /** A reply already free of surrounding whitespace and not opening with
      ```` ```json ```` comes back unchanged, so a bare ```` ``` ```` fence
      is left in place. */
  lemma CleanResponseKeepsUnfenced(t: string)
    requires Stripped(t) && !StartsWith(t, JsonFence)
    ensures CleanResponse(t) == t
  {
    StripUnique("", t, "");
    assert "" + t + "" == t;
  }

  lemma BareFenceIsKept()
    ensures CleanResponse("```\n{}\n```") == "```\n{}\n```"
  {
    var t := "```\n{}\n```";
    assert t[3] == '\n' && JsonFence[3] == 'j';
    assert t[..7] != JsonFence;
    CleanResponseKeepsUnfenced(t);
  }

  /** Cleaning a cleaned unfenced reply changes nothing. */
  lemma CleanResponseIdempotentUnfenced(s: string)
    requires !StartsWith(Strip(s), JsonFence)
    ensures CleanResponse(CleanResponse(s)) == CleanResponse(s)
  {
    StripIdempotent(s);
  }

  /* --------------------------------------------------------- the analysis */

  /** `get_gemini_response`: the reply text, or `None` when the call raises. */
  function GetGeminiResponse(generate: string -> Result<string, string>, prompt: string): (r: Option<string>)
    ensures r.None? <==> generate(prompt).Failure?
    ensures r.Some? ==> r.value == generate(prompt).value
  {
    match generate(prompt)
    case Failure(_) => None
    case Success(reply) => Some(reply)
  }

  /** `analyze_resume`: `None` when the prompt cannot be filled, when the model
      call fails, or when the reply is empty; otherwise the cleaned reply. */
  function AnalyzeResume(text: string, jd: string, github: Option<string>, tpls: Templates,
                         generate: string -> Result<string, string>): (r: Option<string>)
    ensures var p := Prompt(text, jd, github, tpls);
            r.None? <==> p.Failure? || generate(p.value).Failure? || generate(p.value).value == ""
    ensures r.Some? ==>
              var reply := generate(Prompt(text, jd, github, tpls).value);
              reply.Success? && |reply.value| > 0 && r.value == CleanResponse(reply.value)
  {
    match Prompt(text, jd, github, tpls)
    case Failure(_) => None
    case Success(prompt) =>
      match GetGeminiResponse(generate, prompt)
      case None => None
      case Some(reply) => if |reply| == 0 then None else Some(CleanResponse(reply))
  }

  /** An empty reply is reported as a failed analysis, not as an empty result. */
  lemma EmptyReplyIsNone(text: string, jd: string, github: Option<string>, tpls: Templates,
                         generate: string -> Result<string, string>)
    requires Prompt(text, jd, github, tpls).Success?
    requires generate(Prompt(text, jd, github, tpls).value) == Success("")
    ensures AnalyzeResume(text, jd, github, tpls, generate) == None
  {
  }

  /** A whitespace-only reply is truthy, so it is analysed and comes back empty. */
  lemma BlankReplyIsEmpty(text: string, jd: string, github: Option<string>, tpls: Templates,
                          generate: string -> Result<string, string>, reply: string)
    requires Prompt(text, jd, github, tpls).Success?
    requires generate(Prompt(text, jd, github, tpls).value) == Success(reply)
    requires |reply| > 0 && AllSpace(reply)
    ensures AnalyzeResume(text, jd, github, tpls, generate) == Some("")
  {
    var e: string := [];
    assert reply == reply + e + e;
    StripUnique(reply, e, e);
  }

  /** A fenced JSON reply yields exactly its body. */
  lemma AnalyzeResumeReturnsBody(text: string, jd: string, github: Option<string>, tpls: Templates,
                                 generate: string -> Result<string, string>, p: string, body: string, q: string)
    requires Prompt(text, jd, github, tpls).Success?
    requires generate(Prompt(text, jd, github, tpls).value) == Success(p + JsonFence + body + "```" + q)
    requires AllSpace(p) && AllSpace(q)
    ensures AnalyzeResume(text, jd, github, tpls, generate) == Some(body)
  {
    CleanResponseRemovesFence(p, body, q);
  }
}

=== FILE: keywords.dfy ===
/** The missing-keyword views: a bar chart with one bar of height 1 per
    keyword, and a table that places each keyword in a resume section by a
    case-insensitive, priority-ordered substring rule. */
module Keywords {
  import opened Wrappers
  import opened PyStr

  /** Where the table suggests adding a keyword, in priority order. */
  datatype Placement = Skills | WorkExperience | ProjectHighlights | General

  /** The text of the "Suggested Implementation" column. */
  function SuggestionText(p: Placement): string {
    match p
    case Skills => "Add to Skills/Technologies section"
    case WorkExperience => "Include in Work Experience"
    case ProjectHighlights => "Add to Project Highlights"
    case General => "General Addition"
  }

  const HighImpact := "High"
  const ChartTitle := "Missing Keywords"

  /** The words of each group, looked for in the lower-cased keyword. */
  const SkillWords: seq<string> := ["framework", "language", "tool"]
  const ExperienceWords: seq<string> := ["experience", "year"]
  const ProjectWords: seq<string> := ["project", "develop"]

  /** `any(w in kw.lower() for w in words)`, computed left to right as the
      chain of `or`s is. */
  predicate MentionsAny(kw: string, words: seq<string>) {
    |words| > 0 && (Contains(Lower(kw), words[0]) || MentionsAny(kw, words[1..]))
  }

  /** The reference reading of a group test: some word of the group occurs
      somewhere in the lower-cased keyword. */
  ghost predicate HasWordOf(kw: string, words: seq<string>) {
    exists w, i :: w in words && OccursAt(Lower(kw), w, i)
  }

  /** The group test the table evaluates agrees with its reference reading. */
  lemma {:induction false} MentionsAnyIff(kw: string, words: seq<string>)
    ensures MentionsAny(kw, words) <==> HasWordOf(kw, words)
  {
    if |words| > 0 {
      ContainsIff(Lower(kw), words[0]);
      MentionsAnyIff(kw, words[1..]);
      if HasWordOf(kw, words) {
        var w, i :| w in words && OccursAt(Lower(kw), w, i);
        if w != words[0] {
          assert w in words[1..];
        }
      }
      if MentionsAny(kw, words[1..]) {
        var w, i :| w in words[1..] && OccursAt(Lower(kw), w, i);
        assert w in words;
      }
    }
  }

  /** The conditional expression of the list comprehension: the first group
      that matches decides. */
  function Classify(kw: string): Placement {
    if MentionsAny(kw, SkillWords) then Skills
    else if MentionsAny(kw, ExperienceWords) then WorkExperience
    else if MentionsAny(kw, ProjectWords) then ProjectHighlights
    else General
  }

  /** Each placement is chosen exactly when its group's words occur and no
      earlier group's do. */
  lemma ClassifySpec(kw: string)
    ensures Classify(kw) == Skills <==> HasWordOf(kw, SkillWords)
    ensures Classify(kw) == WorkExperience <==>
              !HasWordOf(kw, SkillWords) && HasWordOf(kw, ExperienceWords)
    ensures Classify(kw) == ProjectHighlights <==>
              !HasWordOf(kw, SkillWords) && !HasWordOf(kw, ExperienceWords) && HasWordOf(kw, ProjectWords)
    ensures Classify(kw) == General <==>
              !HasWordOf(kw, SkillWords) && !HasWordOf(kw, ExperienceWords) && !HasWordOf(kw, ProjectWords)
  {
    MentionsAnyIff(kw, SkillWords);
    MentionsAnyIff(kw, ExperienceWords);
    MentionsAnyIff(kw, ProjectWords);
  }

  /** The rule ignores ASCII case: a keyword and its lower-cased form get the
      same suggestion. */
  lemma ClassifyIgnoresCase(kw: string)
    ensures Classify(Lower(kw)) == Classify(kw)
  {
    MentionsLower(kw, SkillWords);
    MentionsLower(kw, ExperienceWords);
    MentionsLower(kw, ProjectWords);
  }

  lemma {:induction false} MentionsLower(kw: string, words: seq<string>)
    ensures MentionsAny(Lower(kw), words) == MentionsAny(kw, words)
  {
    LowerIdempotent(kw);
    if |words| > 0 {
      MentionsLower(kw, words[1..]);
    }
  }

  /** Priority is strict: a keyword naming a tool gets the Skills suggestion
      even when it also names experience or a project. */
  lemma SkillsWinOverExperience(kw: string, i: int, j: int)
    requires OccursAt(Lower(kw), "tool", i) && OccursAt(Lower(kw), "experience", j)
    ensures Classify(kw) == Skills
    ensures HasWordOf(kw, ExperienceWords)
  {
    assert SkillWords[2] == "tool" && ExperienceWords[0] == "experience";
    assert "tool" in SkillWords && "experience" in ExperienceWords;
    ClassifySpec(kw);
  }

  /** The keyword "Tool Experience" names both a tool and experience; it is
      placed under Skills. */
  lemma ToolExperienceGoesToSkills()
    ensures Classify("Tool Experience") == Skills
    ensures HasWordOf("Tool Experience", ExperienceWords)
  {
    var lowered := Lower("Tool Experience");
    assert lowered == "tool experience";
    assert lowered[0..4] == "tool";
    assert lowered[5..15] == "experience";
    SkillsWinOverExperience("Tool Experience", 0, 5);
  }

  /** One row of the keyword table. */
  datatype Row = Row(keyword: string, impact: string, suggestion: string)

  /** `create_keyword_table`: no table for an empty list, otherwise one row per
      keyword, in input order, every one of High impact. */
  function KeywordTable(keywords: seq<string>): (t: Option<seq<Row>>)
    ensures t.None? <==> |keywords| == 0
    ensures t.Some? ==> |t.value| == |keywords|
    ensures t.Some? ==> forall i :: 0 <= i < |keywords| ==>
              t.value[i].keyword == keywords[i] && t.value[i].impact == HighImpact
  {
    if |keywords| == 0 then None
    else Some(seq(|keywords|, i requires 0 <= i < |keywords| =>
                Row(keywords[i], HighImpact, SuggestionText(Classify(keywords[i])))))
  }

  /** The suggestion in each row is the one the substring rule gives its keyword. */
  lemma KeywordTableSuggestions(keywords: seq<string>, i: int)
    requires 0 <= i < |keywords|
    ensures KeywordTable(keywords).Some?
    ensures KeywordTable(keywords).value[i].suggestion == SuggestionText(Classify(keywords[i]))
    ensures (KeywordTable(keywords).value[i].suggestion == "Add to Skills/Technologies section")
            <==> HasWordOf(keywords[i], SkillWords)
  {
    ClassifySpec(keywords[i]);
  }

  /** The table of the lower-cased keywords suggests the same placements. */
  lemma KeywordTableIgnoresCase(keywords: seq<string>)
    requires |keywords| > 0
    ensures var lowered := seq(|keywords|, i requires 0 <= i < |keywords| => Lower(keywords[i]));
            forall i :: 0 <= i < |keywords| ==>
              KeywordTable(lowered).value[i].suggestion == KeywordTable(keywords).value[i].suggestion
  {
    var lowered := seq(|keywords|, i requires 0 <= i < |keywords| => Lower(keywords[i]));
    forall i | 0 <= i < |keywords|
      ensures KeywordTable(lowered).value[i].suggestion == KeywordTable(keywords).value[i].suggestion
    {
      ClassifyIgnoresCase(keywords[i]);
    }
  }

  /** One bar of the keyword chart. */
  datatype Bar = Bar(keyword: string, count: int)

  datatype Chart = Chart(title: string, bars: seq<Bar>)

  /** `create_keyword_chart`: no figure for an empty list, otherwise one bar of
      height 1 per keyword, in input order. */
  function KeywordChart(keywords: seq<string>): (c: Option<Chart>)
    ensures c.None? <==> |keywords| == 0
    ensures c.Some? ==> c.value.title == ChartTitle && |c.value.bars| == |keywords|
    ensures c.Some? ==> forall i :: 0 <= i < |keywords| ==> c.value.bars[i] == Bar(keywords[i], 1)
  {
    if |keywords| == 0 then None
    else Some(Chart(ChartTitle, seq(|keywords|, i requires 0 <= i < |keywords| => Bar(keywords[i], 1))))
  }

  /** The chart and the table exist for the same inputs and list the keywords
      in the same order. */
  lemma ChartMatchesTable(keywords: seq<string>)
    ensures KeywordChart(keywords).Some? <==> KeywordTable(keywords).Some?
    ensures KeywordChart(keywords).Some? ==>
              forall i :: 0 <= i < |keywords| ==>
                KeywordChart(keywords).value.bars[i].keyword == KeywordTable(keywords).value[i].keyword
  {
  }
}

=== FILE: pystr.dfy ===
/** The fragment of Python's `str` semantics the application relies on:
    `strip()`, `lower()`, the `in` substring test, `startswith`, slicing
    with negative and out-of-range bounds, `sep.join(xs)` and `str(n)` for
    an integer. Strings are sequences of Unicode scalar values; the lone
    surrogates a Python `str` may also hold are not modelled. */
module PyStr {

  /* ---------------------------------------------------------------- strip */

  /** The characters for which Python's `str.isspace()` holds; `strip()` with
      no argument removes exactly these from both ends. */
  predicate IsSpace(c: char) {
    || ('\t' <= c <= '\r')                 // \t \n \x0b \x0c \r
    || ('\U{1c}' <= c <= '\U{1f}')         // file, group, record, unit separators
    || c == ' '
    || c == '\U{85}' || c == '\U{a0}' || c == '\U{1680}'
    || ('\U{2000}' <= c <= '\U{200a}')
    || c == '\U{2028}' || c == '\U{2029}' || c == '\U{202f}'
    || c == '\U{205f}' || c == '\U{3000}'
  }

  ghost predicate AllSpace(s: string) {
    forall i :: 0 <= i < |s| ==> IsSpace(s[i])
  }

  /** A string that `strip()` leaves alone: empty, or neither end is whitespace. */
  ghost predicate Stripped(s: string) {
    s == [] || (!IsSpace(s[0]) && !IsSpace(s[|s| - 1]))
  }

  /** Length of the longest all-whitespace prefix. */
  function LeadingSpace(s: string): (n: nat)
    ensures n <= |s|
    ensures AllSpace(s[..n])
    ensures n < |s| ==> !IsSpace(s[n])
  {
    if |s| == 0 || !IsSpace(s[0]) then 0
    else
      var k := LeadingSpace(s[1..]);
      assert s[1..][..k] == s[1..k + 1];
      1 + k
  }

  /** Length of the longest all-whitespace suffix. */
  function TrailingSpace(s: string): (n: nat)
    ensures n <= |s|
    ensures AllSpace(s[|s| - n..])
    ensures n < |s| ==> !IsSpace(s[|s| - n - 1])
  {
    if |s| == 0 || !IsSpace(s[|s| - 1]) then 0
    else
      var k := TrailingSpace(s[..|s| - 1]);
      assert s[..|s| - 1][|s| - 1 - k..] == s[|s| - 1 - k..|s| - 1];
      1 + k
  }

  /** Python's `s.strip()`. */
  function Strip(s: string): (r: string)
    ensures Stripped(r)
    ensures exists a, b :: 0 <= a <= b <= |s| && r == s[a..b] && AllSpace(s[..a]) && AllSpace(s[b..])
  {
    var a := LeadingSpace(s);
    var t := s[a..];
    var b := a + (|t| - TrailingSpace(t));
    assert t[|t| - TrailingSpace(t)..] == s[b..];
    assert s[a..b] == t[..|t| - TrailingSpace(t)];
    s[a..b]
  }

  /** A whitespace prefix adds its length to the leading-whitespace count. */
  lemma {:induction false} LeadingSpaceAfter(p: string, t: string)
    requires AllSpace(p)
    ensures LeadingSpace(p + t) == |p| + LeadingSpace(t)
  {
    if |p| > 0 {
      assert (p + t)[1..] == p[1..] + t;
      LeadingSpaceAfter(p[1..], t);
    } else {
      assert p + t == t;
    }
  }

  /** A whitespace suffix adds its length to the trailing-whitespace count. */
  lemma {:induction false} TrailingSpaceBefore(t: string, q: string)
    requires AllSpace(q)
    ensures TrailingSpace(t + q) == |q| + TrailingSpace(t)
  {
    if |q| > 0 {
      assert (t + q)[..|t + q| - 1] == t + q[..|q| - 1];
      TrailingSpaceBefore(t, q[..|q| - 1]);
    } else {
      assert t + q == t;
    }
  }

  /** Whitespace on both sides of a stripped core is exactly what `strip()`
      removes: the decomposition `s == p + r + q` is unique. */
  lemma StripUnique(p: string, r: string, q: string)
    requires AllSpace(p) && AllSpace(q) && Stripped(r)
    ensures Strip(p + r + q) == r
  {
    var s := p + r + q;
    assert s == p + (r + q);
    LeadingSpaceAfter(p, r + q);
    if r == [] {
      assert r + q + [] == q;
      LeadingSpaceAfter(q, []);
    } else {
      assert (r + q)[0] == r[0];
      assert LeadingSpace(r + q) == 0;
      assert s[|p|..] == r + q;
      TrailingSpaceBefore(r, q);
      assert TrailingSpace(r) == 0;
      assert s[|p|..|p| + |r|] == r;
    }
  }

  /** `strip()` is idempotent. */
  lemma StripIdempotent(s: string)
    ensures Strip(Strip(s)) == Strip(s)
  {
    var r := Strip(s);
    assert r == [] + r + [];
    StripUnique([], r, []);
  }

  /* ---------------------------------------------------------------- lower */

  /** `c.lower()` for ASCII letters; every other character is its own lower case here. */
  function LowerChar(c: char): char {
    if 'A' <= c <= 'Z' then (c as int + 32) as char else c
  }

  /** Python's `s.lower()`, restricted to the ASCII case mapping. */
  function Lower(s: string): (r: string)
    ensures |r| == |s|
    ensures forall i :: 0 <= i < |s| ==> r[i] == LowerChar(s[i])
  {
    seq(|s|, i requires 0 <= i < |s| => LowerChar(s[i]))
  }

  /** Lower-casing twice changes nothing further, and it leaves no ASCII capital behind. */
  lemma LowerIdempotent(s: string)
    ensures Lower(Lower(s)) == Lower(s)
    ensures forall i :: 0 <= i < |s| ==> !('A' <= Lower(s)[i] <= 'Z')
  {
  }

  /* ------------------------------------------------ startswith and `in` */

  /** `s.startswith(p)`. */
  predicate StartsWith(s: string, p: string) {
    |p| <= |s| && s[..|p|] == p
  }

  /** `p` occurs in `s` beginning at index `i`. */
  ghost predicate OccursAt(s: string, p: string, i: int) {
    0 <= i && i + |p| <= |s| && s[i..i + |p|] == p
  }

  /** Python's `p in s` for strings. */
  predicate Contains(s: string, p: string)
    decreases |s|
  {
    StartsWith(s, p) || (|s| > 0 && Contains(s[1..], p))
  }

  /** `Contains` holds exactly when some position of `s` starts an occurrence of `p`. */
  lemma {:induction false} ContainsIff(s: string, p: string)
    ensures Contains(s, p) <==> exists i :: OccursAt(s, p, i)
    decreases |s|
  {
    if StartsWith(s, p) {
      assert OccursAt(s, p, 0);
    } else if |s| == 0 {
    } else {
      ContainsIff(s[1..], p);
      if exists i :: OccursAt(s[1..], p, i) {
        var i :| OccursAt(s[1..], p, i);
        assert s[1..][i..i + |p|] == s[i + 1..i + 1 + |p|];
        assert OccursAt(s, p, i + 1);
      }
      if exists i :: OccursAt(s, p, i) {
        var i :| OccursAt(s, p, i);
        assert i != 0;
        assert s[1..][i - 1..i - 1 + |p|] == s[i..i + |p|];
        assert OccursAt(s[1..], p, i - 1);
      }
    }
  }

  /** Appending to a string keeps its occurrences. */
  lemma OccursExtend(x: string, y: string, p: string, o: int)
    requires OccursAt(x, p, o)
    ensures OccursAt(x + y, p, o)
  {
    assert (x + y)[o..o + |p|] == x[o..o + |p|];
  }

  /** Prepending to a string shifts its occurrences by the prefix's length. */
  lemma OccursShift(x: string, y: string, p: string, o: int)
    requires OccursAt(y, p, o)
    ensures OccursAt(x + y, p, |x| + o)
  {
    assert (x + y)[|x| + o..|x| + o + |p|] == y[o..o + |p|];
  }

  /* ---------------------------------------------------------------- slice */

  /** How Python normalises one bound of `s[start:stop]` for a sequence of length `n`:
      a negative bound counts from the end, and the result is clamped into `0..n`. */
  function SliceBound(i: int, n: nat): (k: nat)
    ensures k <= n
    ensures 0 <= i <= n ==> k == i
    ensures i < 0 && 0 <= i + n ==> k == i + n
    ensures i + n < 0 ==> k == 0
    ensures n < i ==> k == n
  {
    if i < 0 then (if i + n < 0 then 0 else i + n)
    else if i > n then n
    else i
  }

  /** Python's `s[start:stop]` (step 1): never raises, empty when the bounds cross. */
  function Slice(s: string, start: int, stop: int): (r: string)
    ensures |r| == if SliceBound(start, |s|) <= SliceBound(stop, |s|)
                   then SliceBound(stop, |s|) - SliceBound(start, |s|) else 0
    ensures forall k :: 0 <= k < |r| ==> r[k] == s[SliceBound(start, |s|) + k]
  {
    var a := SliceBound(start, |s|);
    var b := SliceBound(stop, |s|);
    if a <= b then s[a..b] else []
  }

  /* ----------------------------------------------------------------- join */

  /** Python's `sep.join(xs)`. */
  function Join(sep: string, xs: seq<string>): string
  {
    if |xs| == 0 then ""
    else if |xs| == 1 then xs[0]
    else xs[0] + sep + Join(sep, xs[1..])
  }

  /** Where the `k`-th piece starts inside `Join(sep, xs)`. */
  function JoinOffset(sep: string, xs: seq<string>, k: nat): nat
    requires k <= |xs|
  {
    if k == 0 then 0 else |xs[0]| + |sep| + JoinOffset(sep, xs[1..], k - 1)
  }

  /** Every piece appears in the joined string, in order, at its offset, and
      consecutive pieces are separated by exactly `sep`. */
  lemma {:induction false} JoinPieces(sep: string, xs: seq<string>, k: nat)
    requires k < |xs|
    ensures OccursAt(Join(sep, xs), xs[k], JoinOffset(sep, xs, k))
    ensures k + 1 < |xs| ==> OccursAt(Join(sep, xs), sep, JoinOffset(sep, xs, k) + |xs[k]|)
    decreases k
  {
    if |xs| == 1 {
      assert Join(sep, xs)[0..|xs[0]|] == xs[0];
    } else if k == 0 {
      JoinFirstPiece(sep, xs);
    } else {
      JoinPieces(sep, xs[1..], k - 1);
      JoinLaterPiece(sep, xs, k);
    }
  }

  /** The first of several pieces opens the joined string and is followed by `sep`. */
  lemma JoinFirstPiece(sep: string, xs: seq<string>)
    requires |xs| >= 2
    ensures OccursAt(Join(sep, xs), xs[0], 0)
    ensures OccursAt(Join(sep, xs), sep, |xs[0]|)
  {
    var head := xs[0] + sep;
    assert Join(sep, xs) == head + Join(sep, xs[1..]);
    assert OccursAt(head, xs[0], 0) by { assert head[0..|xs[0]|] == xs[0]; }
    assert OccursAt(head, sep, |xs[0]|) by { assert head[|xs[0]|..|xs[0]| + |sep|] == sep; }
    OccursExtend(head, Join(sep, xs[1..]), xs[0], 0);
    OccursExtend(head, Join(sep, xs[1..]), sep, |xs[0]|);
  }

  /** A later piece's place in the tail's join carries over to the whole join. */
  lemma JoinLaterPiece(sep: string, xs: seq<string>, k: nat)
    requires 0 < k < |xs|
    requires OccursAt(Join(sep, xs[1..]), xs[k], JoinOffset(sep, xs[1..], k - 1))
    requires k + 1 < |xs| ==> OccursAt(Join(sep, xs[1..]), sep, JoinOffset(sep, xs[1..], k - 1) + |xs[k]|)
    ensures OccursAt(Join(sep, xs), xs[k], JoinOffset(sep, xs, k))
    ensures k + 1 < |xs| ==> OccursAt(Join(sep, xs), sep, JoinOffset(sep, xs, k) + |xs[k]|)
  {
    var head := xs[0] + sep;
    var rest := Join(sep, xs[1..]);
    assert Join(sep, xs) == head + rest;
    var o := JoinOffset(sep, xs[1..], k - 1);
    assert JoinOffset(sep, xs, k) == |head| + o;
    OccursShift(head, rest, xs[k], o);
    if k + 1 < |xs| {
      OccursShift(head, rest, sep, o + |xs[k]|);
    }
  }

  /* ------------------------------------------------------------- str(int) */

  function DigitChar(d: nat): char
    requires d < 10
  {
    ('0' as int + d) as char
  }

  function DigitValue(c: char): nat
    requires '0' <= c <= '9'
  {
    c as int - '0' as int
  }

  predicate AllDigits(s: string) {
    forall i :: 0 <= i < |s| ==> '0' <= s[i] <= '9'
  }

  /** Decimal digits of `n`, most significant first, without leading zeros. */
  function NatToDigits(n: nat): (r: string)
    ensures |r| >= 1
    ensures AllDigits(r)
    ensures |r| > 1 ==> r[0] != '0'
  {
    if n < 10 then [DigitChar(n)]
    else NatToDigits(n / 10) + [DigitChar(n % 10)]
  }

  /** Reads a run of decimal digits back into a number. */
  function ParseDigits(s: string): nat
    requires AllDigits(s)
  {
    if |s| == 0 then 0
    else 10 * ParseDigits(s[..|s| - 1]) + DigitValue(s[|s| - 1])
  }

  /** Python's `str(n)` for an integer: an optional minus sign, then the digits. */
  function IntToStr(n: int): (r: string)
    ensures |r| >= 1
    ensures (r[0] == '-') <==> n < 0
  {
    if n < 0 then "-" + NatToDigits(-n) else NatToDigits(n)
  }

  /** Reading the rendered digits back yields the number. */
  lemma {:induction false} DigitsRoundTrip(n: nat)
    ensures ParseDigits(NatToDigits(n)) == n
  {
    var r := NatToDigits(n);
    if n >= 10 {
      DigitsRoundTrip(n / 10);
      assert r[..|r| - 1] == NatToDigits(n / 10);
    }
  }

  /** After the minus sign, a negative number renders as the digits of its magnitude. */
  lemma NegativeDigits(n: int)
    requires n < 0
    ensures IntToStr(n)[1..] == NatToDigits(-n)
  {
    assert ("-" + NatToDigits(-n))[1..] == NatToDigits(-n);
  }

  /** Reads `str(n)` back: an optional minus sign, then decimal digits. */
  function ParseInt(s: string): int
    requires |s| >= 1
    requires if s[0] == '-' then AllDigits(s[1..]) else AllDigits(s)
  {
    if s[0] == '-' then -(ParseDigits(s[1..]) as int) else ParseDigits(s)
  }

  /** Reading `str(n)` back yields `n`. */
  lemma IntToStrRoundTrip(n: int)
    ensures if IntToStr(n)[0] == '-' then AllDigits(IntToStr(n)[1..]) else AllDigits(IntToStr(n))
    ensures ParseInt(IntToStr(n)) == n
  {
    if n < 0 {
      NegativeDigits(n);
      DigitsRoundTrip(-n);
    } else {
      DigitsRoundTrip(n);
    }
  }

  /** `str(n)` is injective: distinct integers render differently. */
  lemma IntToStrInjective(m: int, n: int)
    requires IntToStr(m) == IntToStr(n)
    ensures m == n
  {
    IntToStrRoundTrip(m);
    IntToStrRoundTrip(n);
  }
}

=== FILE: rag.dfy ===
/** The retrieval pipeline of `RAGSystem` (app/utils/rag_utils.py): documents
    from a resume, a job description and GitHub repositories are split into
    chunks tagged with their source, embedded into a FAISS `IndexFlatL2`, and
    a chat question is answered by retrieving the five nearest chunks and
    handing them to a chat-completion model.

    The text splitter, the embedding service, the FAISS index and the chat
    model are library or network calls. They are the fields of an `Engine`,
    each returning a value or the exception it raised; the model fixes only
    what `RAGSystem` itself does with their answers. */
module Rag {
  import opened Wrappers
  import opened PyStr

  /* ----------------------------------------------------------- data model */

  /** An embedding vector as returned by the embedding service. */
  type Vector = seq<real>

  /** A reference to a FAISS index object; what it holds is library state. */
  datatype IndexHandle = IndexHandle(id: nat)

  /** One slot of a FAISS search result row: the position of a stored vector
      (FAISS writes -1 into slots it has no neighbour for) and its distance. */
  datatype Hit = Hit(position: int, distance: real)

  /** Where a chunk came from. A GitHub chunk also records its repository's
      name as the record held it; `None` stands for a JSON null name. */
  datatype Source = Resume | JobDescription | Github(repoName: Option<string>)

  /** The `metadata` dict of a chunk: its source (which also fixes the
      `source` and `type` strings) and its position within its own split. */
  datatype Metadata = Metadata(source: Source, chunkId: nat)

  /** The `metadata['source']` string. */
  function SourceName(s: Source): string {
    match s
    case Resume => "resume"
    case JobDescription => "job_description"
    case Github(_) => "github"
  }

  /** The `metadata['type']` string. */
  function SectionType(s: Source): string {
    match s
    case Resume => "resume_section"
    case JobDescription => "jd_section"
    case Github(_) => "github_repo"
  }

  /** An entry of `self.documents`. */
  datatype Document = Document(text: string, metadata: Metadata)

  /** A key of a repository dict: absent, present with a JSON null, or present with a value. */
  datatype Field<T> = Missing | Null | Present(value: T)

  /** A repository record of `github_data['repositories']`, reduced to the keys the pipeline reads. */
  datatype Repository = Repository(
    name: Field<string>,
    description: Field<string>,
    language: Field<string>,
    stars: Field<int>,
    url: Field<string>,
    topics: Field<seq<string>>)

  /** The `github_data` dict, reduced to its `repositories` key. */
  datatype GithubData = GithubData(repositories: Field<seq<Repository>>)

  /** The library and network calls the pipeline makes. */
  datatype Engine = Engine(
    /** `RecursiveCharacterTextSplitter(chunk_size=1000, chunk_overlap=200).split_text` */
    splitText: string -> Result<seq<string>, string>,
    /** `OpenAIEmbeddings.embed_documents` */
    embedDocuments: seq<string> -> Result<seq<Vector>, string>,
    /** `OpenAIEmbeddings.embed_query` */
    embedQuery: string -> Result<Vector, string>,
    /** the float32 conversion, the dimension read and `faiss.IndexFlatL2(dimension)` */
    newFlatIndex: seq<Vector> -> Result<IndexHandle, string>,
    /** `index.add(embeddings_array)` */
    addVectors: (IndexHandle, seq<Vector>) -> Outcome<string>,
    /** `index.search(query_vector, top_k)`, its single result row paired up slot by slot */
    search: (IndexHandle, Vector, int) -> Result<seq<Hit>, string>,
    /** `client.chat.completions.create(...)` with the fixed system message, reduced to the reply text */
    complete: string -> Result<string, string>)

  /** The attributes of a `RAGSystem` instance that change after construction. */
  datatype RagState = RagState(index: Option<IndexHandle>, documents: seq<Document>, metadata: seq<Metadata>)

  /** `RAGSystem.__init__`: refuses a missing or empty API key, otherwise starts empty. */
  function Init(apiKey: Option<string>): (r: Result<RagState, string>)
    ensures r.Success? <==> apiKey.Some? && apiKey.value != ""
    ensures r.Success? ==> r.value.index.None? && r.value.documents == [] && r.value.metadata == []
  {
    if apiKey.None? || apiKey.value == "" then Failure("OpenAI API key is required for RAG functionality")
    else Success(RagState(None, [], []))
  }

  /* ------------------------------------------------------ document list */

  /** `for i, chunk in enumerate(chunks)` appending one document per chunk,
      numbering from `first`. */
  function Enumerate(chunks: seq<string>, source: Source, first: nat): (docs: seq<Document>)
    ensures |docs| == |chunks|
    ensures forall i :: 0 <= i < |chunks| ==> docs[i] == Document(chunks[i], Metadata(source, first + i))
  {
    if |chunks| == 0 then []
    else [Document(chunks[0], Metadata(source, first))] + Enumerate(chunks[1..], source, first + 1)
  }

  /** `repo.get(key, default)` formatted by an f-string: a null prints as `None`. */
  function Render(f: Field<string>, default: string): string {
    match f
    case Missing => default
    case Null => "None"
    case Present(v) => v
  }

  /** `repo.get('stargazers_count', 0)` formatted by an f-string. */
  function RenderStars(f: Field<int>): string {
    match f
    case Missing => IntToStr(0)
    case Null => "None"
    case Present(n) => IntToStr(n)
  }

  /** `repo.get('topics')` is truthy: present, not null, not empty. */
  predicate HasTopics(r: Repository) {
    r.topics.Present? && |r.topics.value| > 0
  }

  /** The `repo_name` metadata value `repo.get('name', 'Unknown')`. */
  function RepoName(r: Repository): Option<string> {
    match r.name
    case Missing => Some("Unknown")
    case Null => None
    case Present(v) => Some(v)
  }

  function RepositoryLine(key: string, value: string): string {
    key + ": " + value + "\n"
  }

  /** The text block built for one repository before it is split. */
  function RepositoryText(r: Repository): string {
    RepositoryLine("Repository", Render(r.name, "Unknown"))
    + RepositoryLine("Description", Render(r.description, "No description"))
    + RepositoryLine("Language", Render(r.language, "Unknown"))
    + RepositoryLine("Stars", RenderStars(r.stars))
    + RepositoryLine("URL", Render(r.url, "No URL"))
    + (if HasTopics(r) then RepositoryLine("Topics", Join(", ", r.topics.value)) else "")
  }

  /** `github_data and github_data.get('repositories')`. */
  predicate HasRepositories(g: Option<GithubData>) {
    g.Some? && g.value.repositories.Present? && |g.value.repositories.value| > 0
  }

  /** The documents of the repositories, in repository order; fails with the
      first repository whose split raises. */
  function RepositoryDocuments(eng: Engine, repos: seq<Repository>): (r: Result<seq<Document>, string>)
  {
    if |repos| == 0 then Success([])
    else
      var chunks :- eng.splitText(RepositoryText(repos[0]));
      var rest :- RepositoryDocuments(eng, repos[1..]);
      Success(Enumerate(chunks, Github(RepoName(repos[0])), 0) + rest)
  }

  /** `process_documents`: rebuilds the document list from scratch. An
      exception from the splitter propagates and leaves the instance as it was. */
  function ProcessDocuments(st: RagState, eng: Engine, resumeText: string, jdText: string, github: Option<GithubData>)
    : (r: Result<RagState, string>)
    ensures eng.splitText(resumeText).Failure? ==> r == Failure(eng.splitText(resumeText).error)
    ensures eng.splitText(resumeText).Success? && eng.splitText(jdText).Failure? ==> r == Failure(eng.splitText(jdText).error)
    ensures r.Success? ==> r.value.index == st.index && r.value.metadata == st.metadata
    ensures !HasRepositories(github) ==>
              (r.Success? <==> eng.splitText(resumeText).Success? && eng.splitText(jdText).Success?)
    ensures !HasRepositories(github) && r.Success? ==>
              |r.value.documents| == |eng.splitText(resumeText).value| + |eng.splitText(jdText).value|
    ensures (eng.splitText(resumeText).Success? && eng.splitText(jdText).Success? && HasRepositories(github)) ==>
              (r.Success? <==> RepositoryDocuments(eng, github.value.repositories.value).Success?)
    ensures (eng.splitText(resumeText).Success? && eng.splitText(jdText).Success? && HasRepositories(github)
             && RepositoryDocuments(eng, github.value.repositories.value).Failure?) ==>
              r == Failure(RepositoryDocuments(eng, github.value.repositories.value).error)
  {
    var resumeChunks :- eng.splitText(resumeText);
    var jdChunks :- eng.splitText(jdText);
    var repoDocs :- if HasRepositories(github) then RepositoryDocuments(eng, github.value.repositories.value) else Success([]);
    Success(st.(documents := Enumerate(resumeChunks, Resume, 0) + Enumerate(jdChunks, JobDescription, 0) + repoDocs))
  }

  /** The chunks of one repository's text, when splitting it does not raise. */
  ghost function Chunks(eng: Engine, r: Repository): seq<string>
    requires eng.splitText(RepositoryText(r)).Success?
  {
    eng.splitText(RepositoryText(r)).value
  }

  /** Every repository's text splits without raising. */
  ghost predicate RepositoriesSplit(eng: Engine, repos: seq<Repository>) {
    forall k :: 0 <= k < |repos| ==> eng.splitText(RepositoryText(repos[k])).Success?
  }

  /** How many chunks the first `k` repositories contribute. */
  ghost function ChunksBefore(eng: Engine, repos: seq<Repository>, k: nat): nat
    requires k <= |repos| && RepositoriesSplit(eng, repos)
  {
    if k == 0 then 0 else |Chunks(eng, repos[0])| + ChunksBefore(eng, repos[1..], k - 1)
  }

  /** The documents one repository contributes. */
  ghost function RepositoryBlock(eng: Engine, r: Repository): seq<Document>
    requires eng.splitText(RepositoryText(r)).Success?
  {
    Enumerate(Chunks(eng, r), Github(RepoName(r)), 0)
  }

  /** Dropping the first repository keeps every remaining text splittable. */
  lemma SplitTail(eng: Engine, repos: seq<Repository>)
    requires |repos| > 0 && RepositoriesSplit(eng, repos)
    ensures RepositoriesSplit(eng, repos[1..])
  {
    forall k | 0 <= k < |repos| - 1 ensures eng.splitText(RepositoryText(repos[1..][k])).Success? {
      assert repos[1..][k] == repos[k + 1];
    }
  }

  /** When every repository splits, the repository documents exist and number
      the chunks of all repositories together. */
  lemma {:induction false} RepositoryDocumentsLength(eng: Engine, repos: seq<Repository>)
    requires RepositoriesSplit(eng, repos)
    ensures RepositoryDocuments(eng, repos).Success?
    ensures |RepositoryDocuments(eng, repos).value| == ChunksBefore(eng, repos, |repos|)
  {
    if |repos| > 0 {
      SplitTail(eng, repos);
      RepositoryDocumentsLength(eng, repos[1..]);
    }
  }

  /** The blocks of documents the repositories contribute, one per repository. */
  ghost function Blocks(eng: Engine, repos: seq<Repository>): (bs: seq<seq<Document>>)
    requires RepositoriesSplit(eng, repos)
    ensures |bs| == |repos|
  {
    seq(|repos|, i requires 0 <= i < |repos| => RepositoryBlock(eng, repos[i]))
  }

  /** Concatenation of a sequence of blocks. */
  function Flatten<T>(bs: seq<seq<T>>): seq<T> {
    if |bs| == 0 then [] else bs[0] + Flatten(bs[1..])
  }

  /** Where block `k` starts inside `Flatten(bs)`. */
  function Offset<T>(bs: seq<seq<T>>, k: nat): nat
    requires k <= |bs|
  {
    if k == 0 then 0 else |bs[0]| + Offset(bs[1..], k - 1)
  }

  /** Block `k` lies in the concatenation at its offset. */
  lemma {:induction false} FlattenBlockAt<T>(bs: seq<seq<T>>, k: nat)
    requires k < |bs|
    ensures Offset(bs, k) + |bs[k]| <= |Flatten(bs)|
    ensures Flatten(bs)[Offset(bs, k)..Offset(bs, k) + |bs[k]|] == bs[k]
  {
    if k == 0 {
      assert Flatten(bs)[..|bs[0]|] == bs[0];
    } else {
      FlattenBlockAt(bs[1..], k - 1);
      assert bs[1..][k - 1] == bs[k];
      BlockShift(bs[0], Flatten(bs[1..]), Offset(bs[1..], k - 1), bs[k]);
    }
  }

  /** The repository documents are the repositories' blocks, concatenated in order. */
  lemma {:induction false} RepositoryDocumentsFlatten(eng: Engine, repos: seq<Repository>)
    requires RepositoriesSplit(eng, repos)
    ensures RepositoryDocuments(eng, repos) == Success(Flatten(Blocks(eng, repos)))
  {
    if |repos| > 0 {
      SplitTail(eng, repos);
      RepositoryDocumentsFlatten(eng, repos[1..]);
      assert Blocks(eng, repos)[1..] == Blocks(eng, repos[1..]);
    }
  }

  /** Counting chunks of the earlier repositories gives the block's offset. */
  lemma {:induction false} ChunksBeforeOffset(eng: Engine, repos: seq<Repository>, k: nat)
    requires k <= |repos| && RepositoriesSplit(eng, repos)
    ensures ChunksBefore(eng, repos, k) == Offset(Blocks(eng, repos), k)
  {
    if k > 0 {
      SplitTail(eng, repos);
      ChunksBeforeOffset(eng, repos[1..], k - 1);
      assert Blocks(eng, repos)[1..] == Blocks(eng, repos[1..]);
    }
  }

  /** The `k`-th repository's block starts after the chunks of all earlier
      repositories, and inside it `chunk_id` restarts at 0. */
  lemma RepositoryBlockAt(eng: Engine, repos: seq<Repository>, k: nat)
    requires k < |repos| && RepositoriesSplit(eng, repos)
    ensures RepositoryDocuments(eng, repos).Success?
    ensures ChunksBefore(eng, repos, k) + |Chunks(eng, repos[k])| <= |RepositoryDocuments(eng, repos).value|
    ensures RepositoryDocuments(eng, repos).value[ChunksBefore(eng, repos, k)..ChunksBefore(eng, repos, k) + |Chunks(eng, repos[k])|]
            == RepositoryBlock(eng, repos[k])
  {
    var bs := Blocks(eng, repos);
    RepositoryDocumentsFlatten(eng, repos);
    ChunksBeforeOffset(eng, repos, k);
    FlattenBlockAt(bs, k);
    assert bs[k] == RepositoryBlock(eng, repos[k]);
  }

  /** Repository documents come in repository order, each repository's block
      numbered from 0. */
  lemma RepositoryDocumentsLayout(eng: Engine, repos: seq<Repository>)
    requires RepositoriesSplit(eng, repos)
    ensures RepositoryDocuments(eng, repos).Success?
    ensures |RepositoryDocuments(eng, repos).value| == ChunksBefore(eng, repos, |repos|)
    ensures forall k :: 0 <= k < |repos| ==>
              ChunksBefore(eng, repos, k) + |Chunks(eng, repos[k])| <= ChunksBefore(eng, repos, |repos|)
    ensures forall k :: 0 <= k < |repos| ==>
              RepositoryDocuments(eng, repos).value[ChunksBefore(eng, repos, k)..ChunksBefore(eng, repos, k) + |Chunks(eng, repos[k])|]
              == RepositoryBlock(eng, repos[k])
  {
    RepositoryDocumentsLength(eng, repos);
    forall k | 0 <= k < |repos|
      ensures ChunksBefore(eng, repos, k) + |Chunks(eng, repos[k])| <= ChunksBefore(eng, repos, |repos|)
      ensures RepositoryDocuments(eng, repos).value[ChunksBefore(eng, repos, k)..ChunksBefore(eng, repos, k) + |Chunks(eng, repos[k])|]
              == RepositoryBlock(eng, repos[k])
    {
      RepositoryBlockAt(eng, repos, k);
    }
  }

  /** A block inside `rest` sits `|first|` further on inside `first + rest`. */
  lemma BlockShift<T>(first: seq<T>, rest: seq<T>, o: nat, block: seq<T>)
    requires o + |block| <= |rest| && rest[o..o + |block|] == block
    ensures (first + rest)[|first| + o..|first| + o + |block|] == block
  {
  }

  /** A repository whose text the splitter cannot split makes the whole repository list fail. */
  lemma {:induction false} RepositoryDocumentsFailure(eng: Engine, repos: seq<Repository>, k: nat)
    requires k < |repos| && eng.splitText(RepositoryText(repos[k])).Failure?
    ensures RepositoryDocuments(eng, repos).Failure?
  {
    if k > 0 {
      assert repos[1..][k - 1] == repos[k];
      RepositoryDocumentsFailure(eng, repos[1..], k - 1);
    }
  }

  /** The document list `process_documents` builds: every resume chunk, then
      every job-description chunk, then each repository's chunks in
      repository order, each numbered from 0 within its own split. Nothing of
      the previous document list survives. */
  lemma ProcessDocumentsLayout(st: RagState, eng: Engine, resumeText: string, jdText: string, github: Option<GithubData>)
    requires eng.splitText(resumeText).Success? && eng.splitText(jdText).Success?
    requires HasRepositories(github) ==> RepositoriesSplit(eng, github.value.repositories.value)
    ensures ProcessDocuments(st, eng, resumeText, jdText, github).Success?
    ensures
      var docs := ProcessDocuments(st, eng, resumeText, jdText, github).value.documents;
      var resume := eng.splitText(resumeText).value;
      var jd := eng.splitText(jdText).value;
      && |resume| + |jd| <= |docs|
      && docs[..|resume|] == Enumerate(resume, Resume, 0)
      && docs[|resume|..|resume| + |jd|] == Enumerate(jd, JobDescription, 0)
      && (!HasRepositories(github) ==> |docs| == |resume| + |jd|)
      && (HasRepositories(github) ==>
            var repos := github.value.repositories.value;
            && |docs| == |resume| + |jd| + ChunksBefore(eng, repos, |repos|)
            && docs[|resume| + |jd|..] == RepositoryDocuments(eng, repos).value)
  {
    var resume := eng.splitText(resumeText).value;
    var jd := eng.splitText(jdText).value;
    var head := Enumerate(resume, Resume, 0) + Enumerate(jd, JobDescription, 0);
    if HasRepositories(github) {
      var repos := github.value.repositories.value;
      RepositoryDocumentsLayout(eng, repos);
      var docs := head + RepositoryDocuments(eng, repos).value;
      assert docs[..|resume|] == Enumerate(resume, Resume, 0);
      assert docs[|resume|..|resume| + |jd|] == Enumerate(jd, JobDescription, 0);
      assert docs[|resume| + |jd|..] == RepositoryDocuments(eng, repos).value;
    } else {
      assert head + [] == head;
      assert head[..|resume|] == Enumerate(resume, Resume, 0);
      assert head[|resume|..|resume| + |jd|] == Enumerate(jd, JobDescription, 0);
    }
  }

  /** `process_documents` replaces the document list: the result does not
      depend on the documents the instance held before. */
  lemma ProcessDocumentsReplaces(st1: RagState, st2: RagState, eng: Engine, resumeText: string, jdText: string, github: Option<GithubData>)
    requires ProcessDocuments(st1, eng, resumeText, jdText, github).Success?
    ensures ProcessDocuments(st2, eng, resumeText, jdText, github).Success?
    ensures ProcessDocuments(st1, eng, resumeText, jdText, github).value.documents
            == ProcessDocuments(st2, eng, resumeText, jdText, github).value.documents
  {
  }

  /** Number of occurrences of `c` in `s`. */
  function Count(s: string, c: char): nat {
    if |s| == 0 then 0 else (if s[0] == c then 1 else 0) + Count(s[1..], c)
  }

  lemma {:induction false} CountConcat(a: string, b: string, c: char)
    ensures Count(a + b, c) == Count(a, c) + Count(b, c)
  {
    if |a| > 0 {
      assert (a + b)[1..] == a[1..] + b;
      CountConcat(a[1..], b, c);
    } else {
      assert a + b == b;
    }
  }

  lemma {:induction false} CountAbsent(s: string, c: char)
    requires c !in s
    ensures Count(s, c) == 0
  {
    if |s| > 0 {
      CountAbsent(s[1..], c);
    }
  }

  /** A `key: value` line holds exactly one line break when its key and value hold none. */
  lemma OneLine(key: string, value: string)
    requires '\n' !in key && '\n' !in value
    ensures Count(RepositoryLine(key, value), '\n') == 1
  {
    CountAbsent(key, '\n');
    CountAbsent(value, '\n');
    CountAbsent(": ", '\n');
    CountConcat(key, ": ", '\n');
    CountConcat(key + ": ", value, '\n');
    CountConcat(key + ": " + value, "\n", '\n');
  }

  /** The values printed into a repository's text. */
  function RepositoryValues(r: Repository): seq<string> {
    [Render(r.name, "Unknown"), Render(r.description, "No description"), Render(r.language, "Unknown"),
     RenderStars(r.stars), Render(r.url, "No URL")]
    + (if HasTopics(r) then [Join(", ", r.topics.value)] else [])
  }

  /** Five `key: value` lines followed by `tail` hold five more line breaks than `tail`. */
  lemma FiveLines(k1: string, v1: string, k2: string, v2: string, k3: string, v3: string,
                  k4: string, v4: string, k5: string, v5: string, tail: string)
    requires '\n' !in k1 && '\n' !in k2 && '\n' !in k3 && '\n' !in k4 && '\n' !in k5
    requires '\n' !in v1 && '\n' !in v2 && '\n' !in v3 && '\n' !in v4 && '\n' !in v5
    ensures Count(RepositoryLine(k1, v1) + RepositoryLine(k2, v2) + RepositoryLine(k3, v3)
                  + RepositoryLine(k4, v4) + RepositoryLine(k5, v5) + tail, '\n') == 5 + Count(tail, '\n')
  {
    var l1, l2, l3, l4, l5 := RepositoryLine(k1, v1), RepositoryLine(k2, v2), RepositoryLine(k3, v3),
                              RepositoryLine(k4, v4), RepositoryLine(k5, v5);
    OneLine(k1, v1);
    OneLine(k2, v2);
    OneLine(k3, v3);
    OneLine(k4, v4);
    OneLine(k5, v5);
    CountConcat(l1, l2, '\n');
    CountConcat(l1 + l2, l3, '\n');
    CountConcat(l1 + l2 + l3, l4, '\n');
    CountConcat(l1 + l2 + l3 + l4, l5, '\n');
    CountConcat(l1 + l2 + l3 + l4 + l5, tail, '\n');
  }

  /** A concatenation starts with its first part. */
  lemma StartsWithFirst(a: string, b: string, c: string, d: string, e: string, f: string)
    ensures StartsWith(a + b + c + d + e + f, a)
  {
    assert (a + b + c + d + e + f)[..|a|] == a;
  }

  /** A repository's text is the five lines Repository, Description, Language,
      Stars and URL, plus a Topics line exactly when the topics are non-empty. */
  lemma RepositoryTextLines(r: Repository)
    requires forall v :: v in RepositoryValues(r) ==> '\n' !in v
    ensures StartsWith(RepositoryText(r), RepositoryLine("Repository", Render(r.name, "Unknown")))
    ensures Count(RepositoryText(r), '\n') == if HasTopics(r) then 6 else 5
  {
    var vs := RepositoryValues(r);
    var v1, v2, v3 := Render(r.name, "Unknown"), Render(r.description, "No description"), Render(r.language, "Unknown");
    var v4, v5 := RenderStars(r.stars), Render(r.url, "No URL");
    assert vs[0] == v1 && vs[1] == v2 && vs[2] == v3 && vs[3] == v4 && vs[4] == v5;
    assert vs[0] in vs && vs[1] in vs && vs[2] in vs && vs[3] in vs && vs[4] in vs;
    var l6 := if HasTopics(r) then RepositoryLine("Topics", Join(", ", r.topics.value)) else "";
    if HasTopics(r) {
      assert vs[5] == Join(", ", r.topics.value) && vs[5] in vs;
      OneLine("Topics", vs[5]);
    } else {
      CountAbsent(l6, '\n');
    }
    assert '\n' !in "Repository" && '\n' !in "Description" && '\n' !in "Language";
    assert '\n' !in "Stars" && '\n' !in "URL";
    FiveLines("Repository", v1, "Description", v2, "Language", v3, "Stars", v4, "URL", v5, l6);
    StartsWithFirst(RepositoryLine("Repository", v1), RepositoryLine("Description", v2), RepositoryLine("Language", v3),
                    RepositoryLine("Stars", v4), RepositoryLine("URL", v5), l6);
  }

  /* ---------------------------------------------------------- index build */

  function Texts(docs: seq<Document>): (ts: seq<string>)
    ensures |ts| == |docs|
  {
    seq(|docs|, i requires 0 <= i < |docs| => docs[i].text)
  }

  /** The result of a call that changes the instance and may raise. */
  datatype Step = Step(state: RagState, outcome: Outcome<string>)

  /** `create_embeddings_and_index`. With no documents it logs and returns.
      Otherwise `metadata` is reassigned before anything can raise, the index
      is replaced only once `IndexFlatL2` has been built, and an exception
      from `add` leaves that new index in place. */
  function CreateEmbeddingsAndIndex(st: RagState, eng: Engine): (r: Step)
    ensures |st.documents| == 0 ==> r == Step(st, Pass)
    ensures r.state.documents == st.documents
    ensures |st.documents| > 0 ==>
              && |r.state.metadata| == |st.documents|
              && forall i :: 0 <= i < |st.documents| ==> r.state.metadata[i] == st.documents[i].metadata
    ensures |st.documents| > 0 && eng.embedDocuments(Texts(st.documents)).Failure? ==>
              r.state.index == st.index && r.outcome == Fail(eng.embedDocuments(Texts(st.documents)).error)
    ensures |st.documents| > 0 && eng.embedDocuments(Texts(st.documents)).Success?
            && eng.newFlatIndex(eng.embedDocuments(Texts(st.documents)).value).Failure? ==>
              r.state.index == st.index
              && r.outcome == Fail(eng.newFlatIndex(eng.embedDocuments(Texts(st.documents)).value).error)
    ensures |st.documents| > 0 && eng.embedDocuments(Texts(st.documents)).Success?
            && eng.newFlatIndex(eng.embedDocuments(Texts(st.documents)).value).Success? ==>
              var vs := eng.embedDocuments(Texts(st.documents)).value;
              var h := eng.newFlatIndex(vs).value;
              r.state.index == Some(h) && r.outcome == eng.addVectors(h, vs)
    ensures r.state.index != st.index ==> r.state.index.Some?
    ensures |st.documents| > 0 && r.outcome.Pass? ==> r.state.index.Some?
  {
    if |st.documents| == 0 then Step(st, Pass)
    else
      var texts := Texts(st.documents);
      var withMetadata := st.(metadata := seq(|st.documents|, i requires 0 <= i < |st.documents| => st.documents[i].metadata));
      match eng.embedDocuments(texts)
      case Failure(e) => Step(withMetadata, Fail(e))
      case Success(vectors) =>
        match eng.newFlatIndex(vectors)
        case Failure(e) => Step(withMetadata, Fail(e))
        case Success(h) => Step(withMetadata.(index := Some(h)), eng.addVectors(h, vectors))
  }

  /* ------------------------------------------------------------ retrieval */

  /** A dict of the list `retrieve_relevant_context` returns. */
  datatype Retrieved = Retrieved(text: string, metadata: Metadata, score: real)

  /** `xs[i]` under Python indexing: a negative index counts from the end. */
  function PyIndex<T>(xs: seq<T>, i: int): (x: T)
    requires 0 <= i + |xs| && i < |xs|
    ensures 0 <= i ==> x == xs[i]
    ensures i < 0 ==> x == xs[|xs| + i]
    ensures x in xs
  {
    if i < 0 then xs[|xs| + i] else xs[i]
  }

  /** `distances[0][list(indices[0]).index(idx)]`: the distance in the first
      slot whose position is `idx`. */
  function FirstDistance(hits: seq<Hit>, idx: int): (d: real)
    requires exists j :: 0 <= j < |hits| && hits[j].position == idx
    ensures exists j :: 0 <= j < |hits| && hits[j].position == idx && d == hits[j].distance
                        && forall i :: 0 <= i < j ==> hits[i].position != idx
  {
    if hits[0].position == idx then hits[0].distance
    else
      assert exists j :: 0 <= j < |hits[1..]| && hits[1..][j].position == idx by {
        var j :| 0 <= j < |hits| && hits[j].position == idx;
        assert hits[1..][j - 1] == hits[j];
      }
      var d := FirstDistance(hits[1..], idx);
      ghost var j :| 0 <= j < |hits[1..]| && hits[1..][j].position == idx && d == hits[1..][j].distance
                    && forall i :: 0 <= i < j ==> hits[1..][i].position != idx;
      assert hits[j + 1] == hits[1..][j];
      assert forall i :: 1 <= i < j + 1 ==> hits[i] == hits[1..][i - 1];
      d
  }

  /** The slots that pass the `idx < len(self.documents)` filter, in row order. */
  function Retained(hits: seq<Hit>, n: nat): (kept: seq<Hit>)
    ensures |kept| <= |hits|
    ensures forall j :: 0 <= j < |kept| ==> kept[j] in hits && kept[j].position < n
  {
    if |hits| == 0 then []
    else
      var front := Retained(hits[..|hits| - 1], n);
      var last := hits[|hits| - 1];
      assert forall j :: 0 <= j < |hits| - 1 ==> hits[j] == hits[..|hits| - 1][j];
      front + (if last.position < n then [last] else [])
  }

  /** The dict built for a retained slot. */
  function Resolve(docs: seq<Document>, hits: seq<Hit>, h: Hit): Retrieved
    requires h in hits
    requires 0 <= h.position + |docs| && h.position < |docs|
  {
    var d := PyIndex(docs, h.position);
    Retrieved(d.text, d.metadata, FirstDistance(hits, h.position))
  }

  /** What the mapping loop of `retrieve_relevant_context` produces: `None`
      when some retained position is below `-len(documents)`, so that
      `documents[idx]` raises `IndexError`; otherwise one dict per retained
      slot, in row order. */
  function ResolveHits(docs: seq<Document>, hits: seq<Hit>): (r: Option<seq<Retrieved>>)
    ensures r.Some? ==> |r.value| == |Retained(hits, |docs|)|
    ensures r.Some? ==> forall e :: e in r.value ==>
              exists d :: d in docs && d.text == e.text && d.metadata == e.metadata
  {
    var kept := Retained(hits, |docs|);
    if exists j :: 0 <= j < |kept| && kept[j].position + |docs| < 0 then None
    else Some(seq(|kept|, j requires 0 <= j < |kept| => Resolve(docs, hits, kept[j])))
  }

  /** Retaining from one more slot extends the result by that slot or by nothing. */
  lemma RetainedStep(hits: seq<Hit>, n: nat, i: nat)
    requires i < |hits|
    ensures Retained(hits[..i + 1], n) == Retained(hits[..i], n) + (if hits[i].position < n then [hits[i]] else [])
  {
    assert hits[..i + 1][..i] == hits[..i];
    assert hits[..i + 1][i] == hits[i];
  }

  /** Retaining from a prefix of the row gives a prefix of retaining from the row. */
  lemma {:induction false} RetainedPrefix(hits: seq<Hit>, n: nat, i: nat)
    requires i <= |hits|
    ensures |Retained(hits[..i], n)| <= |Retained(hits, n)|
    ensures Retained(hits[..i], n) == Retained(hits, n)[..|Retained(hits[..i], n)|]
    decreases |hits| - i
  {
    if i < |hits| {
      RetainedPrefix(hits, n, i + 1);
      RetainedStep(hits, n, i);
      var short := Retained(hits[..i], n);
      var long := Retained(hits[..i + 1], n);
      var all := Retained(hits, n);
      assert long[..|short|] == short;
      assert all[..|long|][..|short|] == all[..|short|];
    } else {
      assert hits[..i] == hits;
    }
  }

  /** The loop of `retrieve_relevant_context` as the source writes it, slot by
      slot; it computes exactly `ResolveHits`. */
  method ResolveHitsLoop(docs: seq<Document>, hits: seq<Hit>) returns (r: Option<seq<Retrieved>>)
    ensures r == ResolveHits(docs, hits)
  {
    var relevant: seq<Retrieved> := [];
    var i := 0;
    while i < |hits|
      invariant 0 <= i <= |hits|
      invariant ResolvedSoFar(docs, hits, Retained(hits[..i], |docs|), relevant)
    {
      var h := hits[i];
      RetainedStep(hits, |docs|, i);
      if h.position < |docs| {
        if h.position + |docs| < 0 {
          OutOfRangeAborts(docs, hits, i);
          return None;
        }
        ResolvedExtend(docs, hits, Retained(hits[..i], |docs|), relevant, h);
        relevant := relevant + [Resolve(docs, hits, h)];
      }
      i := i + 1;
    }
    assert hits[..i] == hits;
    ResolvedAll(docs, hits, relevant);
    r := Some(relevant);
  }

  lemma ResolvedExtend(docs: seq<Document>, hits: seq<Hit>, kept: seq<Hit>, relevant: seq<Retrieved>, h: Hit)
    requires ResolvedSoFar(docs, hits, kept, relevant)
    requires h in hits && 0 <= h.position + |docs| && h.position < |docs|
    ensures ResolvedSoFar(docs, hits, kept + [h], relevant + [Resolve(docs, hits, h)])
  {
  }

  lemma ResolvedAll(docs: seq<Document>, hits: seq<Hit>, relevant: seq<Retrieved>)
    requires ResolvedSoFar(docs, hits, Retained(hits, |docs|), relevant)
    ensures ResolveHits(docs, hits) == Some(relevant)
  {
    var kept := Retained(hits, |docs|);
    assert !exists j :: 0 <= j < |kept| && kept[j].position + |docs| < 0;
    assert relevant == seq(|kept|, j requires 0 <= j < |kept| => Resolve(docs, hits, kept[j]));
  }

  /** The loop's invariant: `relevant` holds one dict per slot retained so far. */
  ghost predicate ResolvedSoFar(docs: seq<Document>, hits: seq<Hit>, kept: seq<Hit>, relevant: seq<Retrieved>) {
    && |relevant| == |kept|
    && forall j :: 0 <= j < |kept| ==>
         kept[j] in hits && 0 <= kept[j].position + |docs| && kept[j].position < |docs|
         && relevant[j] == Resolve(docs, hits, kept[j])
  }

  /** A retained position below `-len(documents)` makes the whole mapping fail. */
  lemma OutOfRangeAborts(docs: seq<Document>, hits: seq<Hit>, i: nat)
    requires i < |hits| && hits[i].position + |docs| < 0
    ensures ResolveHits(docs, hits).None?
  {
    RetainedStep(hits, |docs|, i);
    RetainedPrefix(hits, |docs|, i + 1);
    var kept := Retained(hits, |docs|);
    var j := |Retained(hits[..i], |docs|)|;
    assert kept[j] == hits[i];
  }

  /** `retrieve_relevant_context`: `[]` without an index, and `[]` whenever
      embedding the query, searching or indexing the documents raises. */
  function RetrieveRelevantContext(st: RagState, eng: Engine, query: string, topK: int): (r: seq<Retrieved>)
    ensures st.index.None? ==> r == []
    ensures st.index.Some? && eng.embedQuery(query).Failure? ==> r == []
    ensures (st.index.Some? && eng.embedQuery(query).Success?
             && eng.search(st.index.value, eng.embedQuery(query).value, topK).Failure?) ==> r == []
    ensures (st.index.Some? && eng.embedQuery(query).Success?
             && eng.search(st.index.value, eng.embedQuery(query).value, topK).Success?) ==>
              var hits := eng.search(st.index.value, eng.embedQuery(query).value, topK).value;
              r == (if ResolveHits(st.documents, hits).Some? then ResolveHits(st.documents, hits).value else [])
    ensures forall e :: e in r ==> exists d :: d in st.documents && d.text == e.text && d.metadata == e.metadata
  {
    if st.index.None? then []
    else
      match eng.embedQuery(query)
      case Failure(_) => []
      case Success(v) =>
        match eng.search(st.index.value, v, topK)
        case Failure(_) => []
        case Success(hits) =>
          match ResolveHits(st.documents, hits)
          case None => []
          case Some(found) => found
  }

  /** FAISS pads a short row with -1, and `-1 < len(documents)` holds, so a
      padding slot resolves to the last document; every padding slot reports
      the distance of the first padding slot. */
  lemma PaddingResolvesToLastDocument(docs: seq<Document>, hits: seq<Hit>, j: nat, j0: nat)
    requires |docs| > 0
    requires forall i :: 0 <= i < |hits| ==> -|docs| <= hits[i].position < |docs|
    requires j < |hits| && hits[j].position == -1
    requires j0 < |hits| && hits[j0].position == -1 && forall i :: 0 <= i < j0 ==> hits[i].position != -1
    ensures ResolveHits(docs, hits).Some? && j < |ResolveHits(docs, hits).value|
    ensures var last := docs[|docs| - 1];
            ResolveHits(docs, hits).value[j] == Retrieved(last.text, last.metadata, hits[j0].distance)
  {
    ResolvedSlot(docs, hits, j);
    FirstDistanceAt(hits, -1, j0);
  }

  /** The distance reported for a position is the one in its first slot. */
  lemma {:induction false} FirstDistanceAt(hits: seq<Hit>, idx: int, j0: nat)
    requires j0 < |hits| && hits[j0].position == idx
    requires forall i :: 0 <= i < j0 ==> hits[i].position != idx
    ensures FirstDistance(hits, idx) == hits[j0].distance
    decreases j0
  {
    if j0 > 0 {
      assert hits[1..][j0 - 1] == hits[j0];
      assert forall i :: 0 <= i < j0 - 1 ==> hits[1..][i] == hits[i + 1];
      FirstDistanceAt(hits[1..], idx, j0 - 1);
    }
  }

  /** In a row whose positions all index the documents, Python style, slot
      `j` becomes the dict of the document at that position. */
  lemma ResolvedSlot(docs: seq<Document>, hits: seq<Hit>, j: nat)
    requires forall i :: 0 <= i < |hits| ==> -|docs| <= hits[i].position < |docs|
    requires j < |hits|
    ensures ResolveHits(docs, hits).Some? && |ResolveHits(docs, hits).value| == |hits|
    ensures ResolveHits(docs, hits).value[j] == Resolve(docs, hits, hits[j])
  {
    RetainedAll(hits, |docs|);
    ResolveHitsInRange(docs, hits);
  }

  /** A row whose positions are all below `n` is retained whole. */
  lemma {:induction false} RetainedAll(hits: seq<Hit>, n: nat)
    requires forall j :: 0 <= j < |hits| ==> hits[j].position < n
    ensures Retained(hits, n) == hits
  {
    if |hits| > 0 {
      RetainedAll(hits[..|hits| - 1], n);
      assert hits[..|hits| - 1] + [hits[|hits| - 1]] == hits;
    }
  }

  /** When no position is below `-len(documents)`, every retained slot is resolved. */
  lemma ResolveHitsInRange(docs: seq<Document>, hits: seq<Hit>)
    requires forall j :: 0 <= j < |hits| ==> 0 <= hits[j].position + |docs|
    ensures ResolveHits(docs, hits).Some?
    ensures var kept := Retained(hits, |docs|);
            forall j :: 0 <= j < |kept| ==> ResolveHits(docs, hits).value[j] == Resolve(docs, hits, kept[j])
  {
    var kept := Retained(hits, |docs|);
    forall j | 0 <= j < |kept| ensures 0 <= kept[j].position + |docs| {
      var i :| 0 <= i < |hits| && hits[i] == kept[j];
    }
  }

  /** With no documents a padding slot makes `documents[-1]` raise, so the
      whole retrieval yields nothing. */
  lemma PaddingWithoutDocuments(hits: seq<Hit>, j: nat)
    requires j < |hits| && hits[j].position == -1
    ensures ResolveHits([], hits) == None
  {
    OutOfRangeAborts([], hits, j);
  }

  /* ------------------------------------------------------------- answer */

  const NoContextAnswer: string :=
    "I don't have enough context to answer your question. Please try rephrasing or ask about your resume, job description, or GitHub projects."

  const GenerationErrorPrefix: string := "Sorry, I encountered an error while generating a response: "

  const ContextSeparator: string := "\n\n"

  const PromptHead: string :=
    "Based on the following context from the user's resume, job description, and GitHub data, please answer the question.\n\nContext:\n"

  const PromptMiddle: string := "\n\nQuestion: "

  const PromptTail: string :=
    "\n\nPlease provide a comprehensive and helpful answer based on the available context. If the context doesn't contain enough information to fully answer the question, acknowledge this and provide what insights you can.\n\nAnswer:"

  /** The texts of the retrieved dicts, in order. */
  function ContextTexts(ctx: seq<Retrieved>): (ts: seq<string>)
    ensures |ts| == |ctx|
  {
    seq(|ctx|, i requires 0 <= i < |ctx| => ctx[i].text)
  }

  /** The fixed text around the context and around the question. */
  datatype PromptFrame = PromptFrame(head: string, middle: string, tail: string)

  const RagFrame := PromptFrame(PromptHead, PromptMiddle, PromptTail)

  /** The context joined by blank lines and the question, framed by `fr`. */
  function FramePrompt(fr: PromptFrame, ctx: seq<Retrieved>, query: string): string {
    fr.head + Join(ContextSeparator, ContextTexts(ctx)) + fr.middle + query + fr.tail
  }

  /** The user message sent to the chat model. */
  function RagPrompt(ctx: seq<Retrieved>, query: string): string {
    FramePrompt(RagFrame, ctx, query)
  }

  /** `generate_rag_response`: the fixed fallback for an empty context,
      otherwise the chat model's reply, or an apology carrying the reason
      when the call raises. */
  function GenerateRagResponse(query: string, ctx: seq<Retrieved>, complete: string -> Result<string, string>)
    : (r: string)
    ensures |ctx| == 0 ==> r == NoContextAnswer
    ensures |ctx| > 0 && complete(RagPrompt(ctx, query)).Failure? ==>
              r == GenerationErrorPrefix + complete(RagPrompt(ctx, query)).error
    ensures |ctx| > 0 && complete(RagPrompt(ctx, query)).Success? ==> r == complete(RagPrompt(ctx, query)).value
  {
    if |ctx| == 0 then NoContextAnswer
    else
      match complete(RagPrompt(ctx, query))
      case Success(answer) => answer
      case Failure(e) => GenerationErrorPrefix + e
  }

  /** The prompt carries every retrieved text, in retrieval order, separated
      by a blank line, followed by the question. The statement holds for any
      frame, and `RagPrompt` is `FramePrompt(RagFrame, ...)`. */
  lemma PromptCarriesContextInOrder(fr: PromptFrame, ctx: seq<Retrieved>, query: string, k: nat)
    requires k < |ctx|
    ensures OccursAt(FramePrompt(fr, ctx, query), ctx[k].text,
                     |fr.head| + JoinOffset(ContextSeparator, ContextTexts(ctx), k))
    ensures k + 1 < |ctx| ==>
              OccursAt(FramePrompt(fr, ctx, query), ContextSeparator,
                       |fr.head| + JoinOffset(ContextSeparator, ContextTexts(ctx), k) + |ctx[k].text|)
    ensures OccursAt(FramePrompt(fr, ctx, query), query,
                     |fr.head| + |Join(ContextSeparator, ContextTexts(ctx))| + |fr.middle|)
  {
    var ts := ContextTexts(ctx);
    assert ts[k] == ctx[k].text;
    FramedJoin(fr.head, ContextSeparator, ts, fr.middle, query, fr.tail, k);
  }

  /** A joined list framed by fixed text keeps every piece, every following
      separator and the question at their places. */
  lemma FramedJoin(head: string, sep: string, ts: seq<string>, middle: string, query: string, tail: string, k: nat)
    requires k < |ts|
    ensures OccursAt(head + Join(sep, ts) + middle + query + tail, ts[k], |head| + JoinOffset(sep, ts, k))
    ensures k + 1 < |ts| ==>
              OccursAt(head + Join(sep, ts) + middle + query + tail, sep, |head| + JoinOffset(sep, ts, k) + |ts[k]|)
    ensures OccursAt(head + Join(sep, ts) + middle + query + tail, query, |head| + |Join(sep, ts)| + |middle|)
  {
    JoinPieces(sep, ts, k);
    FramedBody(head, Join(sep, ts), middle, query, tail, ts[k], JoinOffset(sep, ts, k));
    if k + 1 < |ts| {
      FramedBody(head, Join(sep, ts), middle, query, tail, sep, JoinOffset(sep, ts, k) + |ts[k]|);
    }
    FramedQuery(head, Join(sep, ts), middle, query, tail);
  }

  /** Occurrences inside the body keep their place once the body and the
      question are framed by fixed text. */
  lemma FramedBody(head: string, body: string, middle: string, query: string, tail: string, x: string, o: int)
    requires OccursAt(body, x, o)
    ensures OccursAt(head + body + middle + query + tail, x, |head| + o)
  {
    OccursShift(head, body, x, o);
    OccursExtend(head + body, middle + query + tail, x, |head| + o);
    assert head + body + (middle + query + tail) == head + body + middle + query + tail;
  }

  /** The question sits right after the body and the middle text. */
  lemma FramedQuery(head: string, body: string, middle: string, query: string, tail: string)
    ensures OccursAt(head + body + middle + query + tail, query, |head| + |body| + |middle|)
  {
    OccursShift(head + body + middle, query, query, 0);
    OccursExtend(head + body + middle + query, tail, query, |head + body + middle|);
  }

  /** The number of chunks `chat_with_rag` retrieves. */
  const ChatTopK: int := 5

  /** `chat_with_rag`: retrieve five chunks, then answer from them. */
  function ChatWithRag(st: RagState, eng: Engine, message: string): (r: string)
    ensures r == GenerateRagResponse(message, RetrieveRelevantContext(st, eng, message, ChatTopK), eng.complete)
    ensures st.index.None? ==> r == NoContextAnswer
    ensures st.index.Some? && eng.embedQuery(message).Failure? ==> r == NoContextAnswer
  {
    var context := RetrieveRelevantContext(st, eng, message, ChatTopK);
    GenerateRagResponse(message, context, eng.complete)
  }

  /** An embedding service that always raises leaves a fresh instance without
      an index, and every chat question then gets the fallback answer. */
  lemma FailingEmbedderFallsBack(st: RagState, eng: Engine, message: string)
    requires st.index.None?
    requires forall texts :: eng.embedDocuments(texts).Failure?
    ensures CreateEmbeddingsAndIndex(st, eng).state.index.None?
    ensures ChatWithRag(CreateEmbeddingsAndIndex(st, eng).state, eng, message) == NoContextAnswer
  {
    assert eng.embedDocuments(Texts(st.documents)).Failure?;
  }
}

=== FILE: wrappers.dfy ===
/** Failure-carrying datatypes used throughout the model. A `Result` stands for
    a Python call that either returns a value or raises; the error string is
    the exception's `str(e)`. */
module Wrappers {

  /** Python's `Optional[T]`: `None` or a value. */
  datatype Option<+T> = None | Some(value: T) {

    predicate IsFailure() {
      None?
    }

    function PropagateFailure<U>(): Option<U>
      requires None?
    {
      None
    }

    function Extract(): T
      requires Some?
    {
      value
    }
  }

  /** A call that returns `value` or raises an exception described by `error`. */
  datatype Result<+R, +E> = Success(value: R) | Failure(error: E) {

    predicate IsFailure() {
      Failure?
    }

    function PropagateFailure<U>(): Result<U, E>
      requires Failure?
    {
      Failure(error)
    }

    function Extract(): R
      requires Success?
    {
      value
    }
  }

  /** A call that returns nothing useful, or raises. */
  datatype Outcome<+E> = Pass | Fail(error: E)
}
